=== FILE: README.md ===
# unigen-back handler rules, modelled in Dafny

unigen-back is the Express back end of a social network with a "senior mode"
for older users. Its handlers are thin layers over MySQL, an SMS gateway and
the Kakao API. Inside them sit a few exact rules, and this project models
those rules and proves what they guarantee:

- the in-memory SMS verification-code store (`sendVerificationCode`, `verifyCode`);
- senior sign-in-or-sign-up by SMS code (`seniorPhoneAuth`);
- senior login and sign-up through Kakao (`seniorKakaoLogin`, `seniorKakaoSignup`);
- general sign-up and login (`signup`, `login`);
- comments with a denormalised per-post `comment_count` (`createComment`, `deleteComment`, `getCommentsByPost`);
- profile pagination (`getUserProfile`);
- the feed's "fetch one more row" paging and mode filter (`getFeed`);
- relative-time bucketing (`getRelativeTime`).

Each handler is a pure function. It takes the database state and the request,
and returns an outcome datatype (one constructor per HTTP answer) together with
the new state.

The database is three sequences: users, posts and comments. The row at index
k has auto-increment id k + 1, and a soft-deleted row has `deletedAt` set.

The JavaScript the handlers rely on is modelled explicitly in these modules:

- `JsString`: string truthiness (an absent or empty string is falsy), `a || b`, and `String.prototype.trim`.
- `JsNumber`: `Number(x)`, `parseInt(s)` and `parseInt(s, 10)`.
- `Query`: SQL `WHERE`, `COUNT`, `ORDER BY` and `LIMIT/OFFSET` over sequences.

Modules:

| file | module | models |
|---|---|---|
| wrappers.dfy | Wrappers | `Option` |
| js_string.dfy | JsString | truthiness, `||`, `trim` |
| js_number.dfy | JsNumber | `Number`, `parseInt`, decimal printing |
| query.dfy | Query | selection, counting, ordering, paging |
| arith.dfy | Arith | monotonicity of multiplication and division |
| store.dfy | Store | tables, token payload, uniqueness rules |
| date_utils.dfy | DateUtils | `getRelativeTime` |
| verification_codes.dfy | VerificationCodes | code store, `sendVerificationCode`, `verifyCode` |
| senior.dfy | Senior | `seniorPhoneAuth`, `seniorKakaoLogin`, `seniorKakaoSignup` |
| auth.dfy | Auth | `signup`, `login` |
| comments.dfy | Comments | `createComment`, `deleteComment`, `getCommentsByPost` |
| profile.dfy | Profile | `getUserProfile` |
| feed.dfy | Feed | `getFeed` |

These are parameters of the model rather than parts of it:

- the clock (`Date.now()`, SQL `NOW()`): an integer `now` in milliseconds. A stored `created_at` is the instant the server's `new Date(text)` makes of the column's text, since the connection returns dates as strings (src/config/db.mjs:13);
- `Math.random()`: a real in [0, 1);
- whether the SMS gateway accepted the message: a boolean;
- the Kakao user-info call: `Option<KakaoProfile>`, where `None` means the call threw;
- bcrypt's `hash` and `compare`: function-valued parameters.

## Model

| member | source | states |
|---|---|---|
| JsString.Trim | src/controllers/commentController.mjs:22-24 | the trimmed text is the input with its leading and trailing white space removed: it starts right after the leading white space, everything after it is white space, it is empty exactly when the input is all white space, and otherwise starts and ends with non-space |
| JsString.TrimOfTrimmed | src/controllers/commentController.mjs:51 | text that neither starts nor ends with white space is left unchanged by trimming |
| JsString.TrimIdempotent | src/controllers/commentController.mjs:22-24 | trimming text that has already been trimmed changes nothing, so the emptiness check and the stored text see the same trimmed content |
| JsNumber.DecimalString | src/utils/dateUtils.mjs:25-29 | a number prints as a non-empty run of decimal digits, with no leading zero, whose value is the number |
| JsNumber.DecimalStringLength | src/controllers/seniorController.mjs:11-13 | a number in [10^(k-1), 10^k) prints with exactly k digits |
| JsNumber.ParseIntReadsDecimal | src/controllers/userController.mjs:28-29 | `parseInt` skips leading white space and reads back a printed number, ignoring any non-digit text after it |
| JsNumber.ParseIntReadsNegative | src/controllers/postController.mjs:28-29 | `parseInt` reads a minus sign and the printed number as the negative number |
| JsNumber.ParseIntNoDigits | src/controllers/userController.mjs:28-31 | text starting with no sign, space or digit parses to NaN |
| JsNumber.ParseIntOfAbsent | src/controllers/postController.mjs:28-29 | an absent query parameter parses to NaN |
| JsNumber.StringToNumberReadsDecimal | src/controllers/commentController.mjs:91 | `Number` of a printed number is that number |
| JsNumber.StringToNumberRejectsTrailingText | src/controllers/commentController.mjs:91-94 | `Number` of a number followed by other text is NaN, so such an id is refused |
| JsNumber.StringToNumberOfBlank | src/controllers/userController.mjs:20-25 | `Number` of blank text is 0 |
| Query.SelectMembers | src/controllers/commentController.mjs:169-186 | a selected row is the projection of a row meeting the WHERE condition, and every such row is selected |
| Query.SelectCount | src/controllers/userController.mjs:46 | the selection has as many rows as `COUNT(1)` with the same condition |
| Query.CountAppend | src/controllers/commentController.mjs:45-58 | inserting a row adds one to a count exactly when the row meets the condition |
| Query.CountUpdate | src/controllers/commentController.mjs:127-144 | updating one row changes a count only by that row's change of verdict |
| Query.MultisetSameMembers | src/controllers/commentController.mjs:183 | reordering rows keeps exactly the same rows |
| Query.Insert | src/controllers/commentController.mjs:183 | inserting into an ordered result keeps it ordered and adds exactly that row |
| Query.SortBy | src/controllers/commentController.mjs:183 | `ORDER BY` yields a permutation of the rows in ascending key order |
| Query.Window | src/controllers/userController.mjs:73 | `LIMIT n OFFSET m` yields the rows from position m on, at most n of them, in order |
| Query.SliceTo | src/controllers/postController.mjs:73 | `slice(0, end)` yields a prefix of length end, or length + end for a negative end, clamped to the bounds |
| Store.FirstWhere | src/controllers/authController.mjs:129-139 | the first row of a lookup meets the condition and no earlier row does; no row means none meets it |
| Store.AppendKeepsUnique | src/controllers/authController.mjs:26-83 | inserting an account with a phone and username no one has keeps phones and usernames unique |
| Store.UpdateKeepsUnique | src/controllers/seniorController.mjs:175-186 | updating an account without changing its phone or username keeps them unique |
| DateUtils.RelativeAge | src/utils/dateUtils.mjs:3 | only a missing date has no age |
| DateUtils.NestedDivisions | src/utils/dateUtils.mjs:17-20 | the successive floors give whole minutes, hours and days of the difference |
| DateUtils.RelativeAgeBuckets | src/utils/dateUtils.mjs:10-34 | after the nine-hour shift, exactly one bucket applies, chosen by the elapsed time alone: under a minute or in the future, minutes 1..59, hours 1..23, days 1..6, or a calendar date from seven days on |
| DateUtils.RelativeAgeMonotone | src/utils/dateUtils.mjs:12-29 | as the clock advances, the bucket never moves back and the count inside a bucket never decreases |
| DateUtils.Label | src/utils/dateUtils.mjs:3 | the label is empty exactly for a missing date |
| DateUtils.LabelReadsBack | src/utils/dateUtils.mjs:25-29 | the number at the head of a minutes, hours or days label parses back to the bucket's count |
| DateUtils.LabelInjective | src/utils/dateUtils.mjs:15-29 | different buckets or counts are shown with different labels |
| VerificationCodes.NormalizePhone | src/controllers/seniorController.mjs:57 | the normalised number has no hyphen and every other character with its multiplicity |
| VerificationCodes.NormalizeConcat | src/controllers/seniorController.mjs:97 | normalising distributes over concatenation, so the kept characters keep their order |
| VerificationCodes.NormalizeWithoutHyphens | src/controllers/seniorController.mjs:150 | a number without hyphens is already normal |
| VerificationCodes.NormalizeIdempotent | src/controllers/seniorController.mjs:361 | normalising twice is normalising once |
| VerificationCodes.CodeNumber | src/controllers/seniorController.mjs:11-13 | the drawn number is in 100000..999999 |
| VerificationCodes.GenerateCode | src/controllers/seniorController.mjs:11-13 | the code is six decimal digits that parse back to the drawn number |
| VerificationCodes.SendVerificationCode | src/controllers/seniorController.mjs:45-84 | without a phone nothing is stored; otherwise the code and an expiry five minutes on are stored for the normalised number, replacing its old entry, leaving other numbers alone, even when the SMS fails |
| VerificationCodes.VerifyCode | src/controllers/seniorController.mjs:86-137 | missing phone or code is refused as input required; with both given, the checks run in the source order: no entry for the normalised number gives "not issued", an entry past its expiry is refused as expired and deleted whatever code was sent, an unexpired entry with a different code gives a mismatch and keeps the store, and success, exactly when the stored code is unexpired and equal, deletes the entry |
| VerificationCodes.IssueThenVerify | src/controllers/seniorController.mjs:98-123 | an issued code is accepted under any spelling of the number with the same digits, up to and including its expiry instant |
| VerificationCodes.IssueThenExpire | src/controllers/seniorController.mjs:107-113 | after its expiry an issued code is refused as expired and its entry deleted |
| VerificationCodes.VerifiedCodeIsConsumed | src/controllers/seniorController.mjs:122-123 | after a successful verification the same code is no longer on record |
| VerificationCodes.WrongCodeKeepsEntry | src/controllers/seniorController.mjs:115-120 | a wrong guess keeps the entry, so the right code still succeeds before expiry |
| VerificationCodes.ReissueReplacesCode | src/controllers/seniorController.mjs:62-67 | a second code issued for a number replaces the first, which then mismatches |
| Senior.LastFour | src/controllers/seniorController.mjs:189 | `slice(-4)` is the last four characters, or all of a shorter string |
| Senior.PhoneAuthNeverReportsSignup | src/controllers/seniorController.mjs:170-229 | as written, every accepted code is answered with "로그인 성공", also when the account was created because no active account had the number |
| Senior.PhoneAuthMessage | src/controllers/seniorController.mjs:229 | the success message reports a sign-up exactly when an account was created |
| Senior.SeniorPhoneAuthIntended | src/controllers/seniorController.mjs:170-229 | the corrected handler: the same state change and outcome, with the sign-up message exactly when no active account had the number and the login message exactly when one did |
| Senior.SeniorPhoneAuth | src/controllers/seniorController.mjs:139-250 | missing phone or code is refused as input required; with both given, a code that is absent, expired or different is refused as invalid; success exactly when the code is accepted; a refusal, even for an expired code, changes nothing; success consumes the code and answers with an active senior-mode account holding the normalised number, and the message the as-written test of its id picks |
| Senior.PhoneAuthCreatesAccount | src/controllers/seniorController.mjs:165-206 | with no active account for the number, exactly one account is appended, with username `senior_` + number, the given name or `시니어` + last four digits, no password and sign-up mode "phone" |
| Senior.PhoneAuthLogsInExisting | src/controllers/seniorController.mjs:163-186 | with an active account for the number, no account is added; the first such account is switched to senior mode and gets the login instant, and no other account changes |
| Senior.PhoneAuthCodeIsSingleUse | src/controllers/seniorController.mjs:154-162 | repeating a successful phone sign-in with the same code is refused |
| Senior.PhoneAuthKeepsAccountsUnique | src/controllers/seniorController.mjs:165-206 | phone sign-in keeps phones and usernames unique when the number is free or held by an active account |
| Senior.PhoneAuthCanDuplicatePhone | src/controllers/seniorController.mjs:165-170 | the lookup sees only active accounts, so an inactive account's number gets a second account |
| Senior.SeniorKakaoLogin | src/controllers/seniorController.mjs:252-331 | a missing token is refused and a failed Kakao call is a server error; with no active account linked to the Kakao id the answer is needs-signup with the Kakao profile; otherwise the first such account logs in, switched to senior mode with the login instant, and only it changes |
| Senior.SeniorKakaoSignup | src/controllers/seniorController.mjs:334-471 | a missing token is refused, a failed Kakao call is a server error, a missing username or phone is refused; with all present and the number, username and Kakao id unused an account is appended, and only then; every refusal changes nothing |
| Senior.KakaoSignupCheckOrder | src/controllers/seniorController.mjs:363-398 | a used number is reported first, then a used username, then a linked Kakao id |
| Senior.KakaoSignupFields | src/controllers/seniorController.mjs:401-428 | the new account has the normalised number, the name given or else the Kakao nickname or else the username, senior mode, the Kakao id, and no password |
| Senior.KakaoSignupKeepsAccountsUnique | src/controllers/seniorController.mjs:363-398 | Kakao sign-up keeps phones, usernames and Kakao links unique |
| Senior.KakaoSignupThenLogin | src/controllers/seniorController.mjs:266-272 | an account just signed up through Kakao logs in with the same Kakao id |
| Auth.Signup | src/controllers/authController.mjs:6-123 | refused exactly when a required field is missing, then when the phone is used, then when the username is used; otherwise one active account is appended with the hashed password and preferred mode defaulting to "normal" |
| Auth.SignupKeepsAccountsUnique | src/controllers/authController.mjs:26-48 | sign-up keeps phones and usernames unique across all accounts |
| Auth.Login | src/controllers/authController.mjs:125-178 | unknown phone exactly when no active account has it; for the first active account with it, an error (500) exactly when the given password or the stored hash is missing, and otherwise a login as that account exactly when compare accepts, a wrong-password answer exactly when it does not |
| Auth.SignupThenLogin | src/controllers/authController.mjs:54-148 | an account just created logs in with its own phone and password when compare accepts a password against its own hash |
| Auth.LoginNeedsMatchingPassword | src/controllers/authController.mjs:141-148 | a password no stored hash accepts never logs in |
| Comments.CallerId | src/controllers/commentController.mjs:4 | the caller is the token's non-zero `userId`, else its non-zero `id`, else nobody |
| Comments.CreateComment | src/controllers/commentController.mjs:9-80 | 401 without a caller, 400 for a falsy post id or blank content, 404 for a missing or deleted post, all changing nothing; on success one active comment with the trimmed text is appended and only that post's count rises by one |
| Comments.CreateKeepsCounts | src/controllers/commentController.mjs:45-58 | creating a comment keeps every post's count equal to its live comments |
| Comments.Decrement | src/controllers/commentController.mjs:133-144 | the decremented counter is one less when positive and never negative |
| Comments.DeleteComment | src/controllers/commentController.mjs:85-156 | 401 without a caller, 400 for a falsy id, 404 for a missing or already deleted comment, 403 for another author, all changing nothing; on success only that comment is marked deleted and only its post's count is decremented |
| Comments.DeleteKeepsCounts | src/controllers/commentController.mjs:127-144 | deleting keeps every post's count equal to its live comments, so the clamp at zero never fires |
| Comments.SoftDeleteKeepsCounts | src/controllers/commentController.mjs:127-144 | soft-deleting a live comment and decrementing its post's count keeps every post's count equal to its live comments, and that count was positive |
| Comments.DeleteIsFinal | src/controllers/commentController.mjs:101-115 | deleting the same comment again finds nothing, so the counter is never decremented twice |
| Comments.GetCommentsByPost | src/controllers/commentController.mjs:161-206 | 400 exactly for a falsy post id; otherwise the joined rows of the post's live comments, ordered oldest first |
| Comments.RowOfFields | src/controllers/commentController.mjs:188-199 | a listed row carries the comment's id, text, instant and age, and its author's id, username and avatar |
| Comments.ListingContents | src/controllers/commentController.mjs:169-186 | a row is listed exactly when it belongs to a live comment of the post whose author exists |
| Comments.ListReadsPostId | src/controllers/commentController.mjs:161-165 | the post id is read with `Number` from the path, or from the query when the path has none; a positive decimal id lists that post, and 0 is refused |
| Comments.ListingMatchesCount | src/controllers/commentController.mjs:169-186 | when every commenter exists, a post lists as many comments as its count says |
| Comments.CreateThenList | src/controllers/commentController.mjs:45-72 | a created comment appears in its post's listing with its new id and trimmed text |
| Profile.PageParam | src/controllers/userController.mjs:28-30 | the page is the parsed integer when at least one, else 1 |
| Profile.LimitParam | src/controllers/userController.mjs:29-33 | the limit is the parsed integer capped at 100 when at least one, else 9 |
| Profile.ProfileIdSources | src/controllers/userController.mjs:9-25 | a non-zero id in the token wins over the path; otherwise the decimal id in the path selects that account, 0 is refused and an id past the last account is not found |
| Profile.CeilDiv | src/controllers/userController.mjs:78 | the least count of pages of the given size holding every row |
| Profile.Paginate | src/controllers/userController.mjs:76-99 | at least one page and exactly enough for every row; the page is clamped to the last; the offset is (page - 1) times the limit, below the total when there are rows; next exactly before the last page, previous exactly after the first |
| Profile.PageSizes | src/controllers/userController.mjs:81-86 | a page with a next page is full and the last page holds the remainder |
| Profile.PagesCoverRows | src/controllers/userController.mjs:81-86 | row j is on page j / limit + 1, so the pages together show every post |
| Profile.AuthorPosts | src/controllers/userController.mjs:60-74 | the user's live posts, all of them, newest first, as many as the post count |
| Profile.ProfileOf | src/controllers/userController.mjs:37-99 | for an existing account: its row with the count of its live posts, the pagination for that count, and the page of those posts at the pagination's offset |
| Profile.GetUserProfile | src/controllers/userController.mjs:5-106 | 400 without an id or for an id that is NaN or not positive; 404 exactly past the last account; otherwise the answer for that account with the page and limit parameters defaulted |
| Profile.ProfilePostsBelongToUser | src/controllers/userController.mjs:60-86 | every post shown is a live post of that user, newest first, at most the limit of them |
| Feed.IntOr | src/controllers/postController.mjs:28-29 | a parameter parsing to NaN or 0 takes the default; any other integer, negative ones included, is kept |
| Feed.FeedList | src/controllers/postController.mjs:34-68 | the candidates are the live "feed" posts with an existing author that the mode allows, each exactly once (the same multiset as the selection, as many as `COUNT` gives), newest first |
| Feed.PageOf | src/controllers/postController.mjs:31-73 | a negative offset or limit is a server error; otherwise `hasNext` holds exactly when more than size of the size + 1 rows at offset (page - 1) * size came back, and the items are candidates in order from that offset |
| Feed.PageLength | src/controllers/postController.mjs:31-73 | a page holds no posts for a size of 0 or -1, and otherwise `size` posts, or what the `LIMIT size + 1` window has when that is fewer |
| Feed.GetFeedPage | src/controllers/postController.mjs:24-73 | with page and size read by `parseInt` and defaulted and a positive size, the answer is the size candidates from offset (page - 1) * size, or what is left, and `hasNext` holds exactly when more candidates remain |
| Feed.FeedUnfilteredModes | src/controllers/postController.mjs:27-61 | without a mode the mode is "all", and every mode other than "senior" and "normal" shows the live "feed" posts of existing authors of both kinds |
| Feed.PageIsSlice | src/controllers/postController.mjs:63-73 | with a positive size, `hasNext` holds exactly when posts remain past this page, and the items are the size posts from the offset, or what is left |
| Feed.FeedItemsMatchMode | src/controllers/postController.mjs:47-61 | for any page and size of a mode's candidates, every item is a live "feed" post with an existing author whose senior flag matches a "senior" or "normal" mode, newest first |
| Feed.PagesFollowOn | src/controllers/postController.mjs:31-32 | a page with a next page is full, and the next page starts with the post right after it |
| Feed.FeedSizeMinusOne | src/controllers/postController.mjs:29-72 | a size of -1 asks for no rows and still reports a next page |

## Left out

- Sending the SMS, calling Kakao's HTTP API, signing and checking tokens, OpenAI, S3 and upload storage are foreign I/O. They appear only as parameters, or not at all.
- bcrypt's hash and compare are parameters. The salt-round setting and hash format are not modelled.
- The calendar text shown for ages of seven days or more depends on the local time zone. `CalendarDate` carries the shifted instant instead of that text.
- The SQL engine, connection pool, transactions and concurrency are not modelled. Each handler is one atomic step, so the window between a duplicate check and an insert cannot show.
- JavaScript numbers are NaN or integers. `Number` accepts blank text, optionally signed decimal digits and `0x` hexadecimal. Fractions, exponents, `Infinity`, `0b`/`0o` literals and numeric separators read as NaN. For example, an id of "1.5" is refused with 400 where the handler would run a lookup that finds nothing.
- Request fields are modelled as strings or absent. A field of another JSON type (a number, a boolean, an array or an object) is not modelled, although the handlers would mostly pass it on to the database or to a truthiness test. The exception is the comment's post id, which is any JSON scalar: undefined, null, a boolean, a number or a string.
- Arrays and objects as the comment's post id are not modelled. `Number` would convert them through their text, so `[7]` reads as 7 and comments on post 7.
- String comparison in a SQL `WHERE col = ?` is modelled as exact equality. The table collation is not modelled. Under MySQL's default case-insensitive collations "Kim" and "kim" are the same username, and under PAD SPACE collations so is "kim ". The duplicate checks, the `UniqueAccounts` invariant and the lookups by phone and Kakao id hold for exact comparison.
- The profile's follower and following counts come from the `user_follows` table, which is not part of this model. So do the `video_url` column and the account's creation instant.
- `ORDER BY` is modelled as a stable sort. The order MySQL gives rows with equal timestamps is unspecified.
- Query.SortBy: the contract states order and permutation, not stability.
- `createPost`, `createStory`, `getSeniorHome`, the AI prompt handler, the routers and the application setup are wiring or single inserts. They are not modelled.
- Posts are never created in the model, so every post row is given.
- The age a list shows depends on the database's and the server's time zones, which are not modelled. `DateUtils.RelativeAge` adds nine hours to the stored instant, as the source does. That is right for the deployment the source assumes, where the column's UTC text is read as Korean local time and so lags the real instant by nine hours. With one shared clock, as in `CreateComment` followed by `GetCommentsByPost`, a fresh comment reads "방금 전" for nine hours.
- Senior.LastFour: counts Dafny characters, while `slice(-4)` counts UTF-16 code units. The two differ only for characters outside the Basic Multilingual Plane.
- `parseInt`, `Number` and the `LIMIT`/`OFFSET` values are exact integers in the model. JavaScript numbers lose precision above 2^53, so a huge page or id would be rounded.
- `users[0]` of a `SELECT` without `ORDER BY` (src/controllers/authController.mjs:129-139, src/controllers/seniorController.mjs:165-170) is taken as the first matching row in table order by `Store.FirstWhere`. MySQL does not promise that order, and the model's uniqueness invariants make the choice matter only when they are broken.
- Username uniqueness is assumed to be the application's rule only. Whatever unique indexes the database schema has are not part of this model.

## Findings

| source | as written | input that shows it | evidently intended | confidence | as-written member | corrected member |
|---|---|---|---|---|---|---|
| src/controllers/seniorController.mjs:229 | the success message tests `user.id`, which is always a positive id | a valid code for a number with no account: a new account is created, yet the message says "로그인 성공" | report "회원가입 및 로그인 성공" when an account was created | high, not executed | Senior.PhoneAuthNeverReportsSignup | Senior.SeniorPhoneAuthIntended |

=== FILE: arith.dfy ===
/** Monotonicity facts about multiplication and Euclidean division that the
    page and age arithmetic need and the solver does not find unaided. */
module Arith {
  lemma MulMonotone(a: nat, b: nat, c: nat)
    requires a <= b
    ensures a * c <= b * c
  {
  }

  lemma DivMonotone(a: nat, b: nat, d: nat)
    requires a <= b && d > 0
    ensures a / d <= b / d
  {
    var qa := a / d;
    var qb := b / d;
    if qa > qb {
      MulMonotone(qb + 1, qa, d);
      assert false;
    }
  }
}

=== FILE: auth.dfy ===
/** The general account handlers: sign-up with required fields and
    duplicate checks, and login by phone number and password. Password
    hashing and comparison are parameters (`hash` stands for
    `bcrypt.hash`, `matches` for `bcrypt.compare`); token issuance is not
    modelled. Neither handler removes hyphens from the phone number. */
module Auth {
  import opened Wrappers
  import opened JsString
  import opened Store

  const DefaultPreferredMode: string := "normal"

  datatype SignupRequest = SignupRequest(
    signupMode: Option<string>,
    username: Option<string>,
    password: Option<string>,
    name: Option<string>,
    phone: Option<string>,
    profileImage: Option<string>,
    preferredMode: Option<string>)

  /** The four fields sign-up cannot do without. */
  predicate HasRequiredFields(req: SignupRequest) {
    Truthy(req.signupMode) && Truthy(req.username) && Truthy(req.phone) && Truthy(req.password)
  }

  datatype SignupOutcome =
    | MissingFields
    | PhoneInUse
    | UsernameInUse
    | SignedUp(id: nat, user: User)

  function SignupStatus(o: SignupOutcome): int {
    if o.SignedUp? then 201 else 400
  }

  /** The account a sign-up inserts. */
  function NewAccount(req: SignupRequest, hash: string -> string, now: int): User
    requires HasRequiredFields(req)
  {
    User(
      signupMode := req.signupMode.value,
      username := req.username.value,
      password := Some(hash(req.password.value)),
      name := req.name,
      phone := req.phone.value,
      profileImage := req.profileImage,
      preferredMode := OrElse(req.preferredMode, DefaultPreferredMode),
      kakaoId := None,
      status := Active,
      lastLoginAt := now)
  }

  /** `signup`. */
  function Signup(users: seq<User>, req: SignupRequest, hash: string -> string, now: int): (r: (SignupOutcome, seq<User>))
    ensures !HasRequiredFields(req) <==> r.0 == MissingFields
    ensures !r.0.SignedUp? ==> r.1 == users
    ensures HasRequiredFields(req) ==>
      && (r.0 == PhoneInUse <==> PhoneTaken(users, req.phone.value))
      && (r.0 == UsernameInUse <==> !PhoneTaken(users, req.phone.value) && UsernameTaken(users, req.username.value))
    ensures r.0.SignedUp? ==>
      && r.1 == users + [r.0.user] && r.0.id == |r.1|
      && r.0.user.phone == req.phone.value && r.0.user.username == req.username.value
      && r.0.user.password == Some(hash(req.password.value))
      && r.0.user.status == Active
      && r.0.user.preferredMode == (if Truthy(req.preferredMode) then req.preferredMode.value else "normal")
  {
    if !HasRequiredFields(req) then (MissingFields, users)
    else if PhoneTaken(users, req.phone.value) then (PhoneInUse, users)
    else if UsernameTaken(users, req.username.value) then (UsernameInUse, users)
    else
      var u := NewAccount(req, hash, now);
      (SignedUp(|users| + 1, u), users + [u])
  }

  /** Sign-up keeps phone numbers and usernames unique across all accounts. */
  lemma SignupKeepsAccountsUnique(users: seq<User>, req: SignupRequest, hash: string -> string, now: int)
    requires UniqueAccounts(users)
    ensures UniqueAccounts(Signup(users, req, hash, now).1)
  {
    var r := Signup(users, req, hash, now);
    if r.0.SignedUp? {
      AppendKeepsUnique(users, r.0.user);
    }
  }

  datatype LoginOutcome =
    | UnknownPhone
    | WrongPassword
    | LoginFailed
    | LoggedIn(id: nat, user: User)

  function LoginStatus(o: LoginOutcome): int {
    match o
    case UnknownPhone => 400
    case WrongPassword => 400
    case LoginFailed => 500
    case LoggedIn(_, _) => 200
  }

  /** `login`: the first active account with the phone number, then the
      password check. An absent phone matches no row. The comparison fails
      with an error (500) when either the given password or the stored one
      is missing, as for accounts made by SMS or Kakao sign-up. */
  function Login(users: seq<User>, phone: Option<string>, password: Option<string>,
                 matches: (string, string) -> bool): (r: LoginOutcome)
    ensures r == UnknownPhone <==>
      phone.None? || forall k :: 0 <= k < |users| ==> !ActiveWithPhone(phone.value)(users[k])
    ensures r.LoggedIn? ==>
      && phone.Some? && 1 <= r.id <= |users| && r.user == users[r.id - 1]
      && r.user.phone == phone.value && r.user.status == Active
      && password.Some? && r.user.password.Some?
      && matches(password.value, r.user.password.value)
    ensures r == WrongPassword ==>
      && phone.Some? && password.Some?
      && (exists k :: 0 <= k < |users| && ActiveWithPhone(phone.value)(users[k])
            && users[k].password.Some? && !matches(password.value, users[k].password.value))
    ensures phone.Some? && FirstWhere(users, ActiveWithPhone(phone.value)).Some? ==>
      var i := FirstWhere(users, ActiveWithPhone(phone.value)).value;
      var u := users[i];
      && (r == LoginFailed <==> password.None? || u.password.None?)
      && (password.Some? && u.password.Some? ==>
            && (r == WrongPassword <==> !matches(password.value, u.password.value))
            && (r == LoggedIn(i + 1, u) <==> matches(password.value, u.password.value)))
  {
    if phone.None? then UnknownPhone
    else
      match FirstWhere(users, ActiveWithPhone(phone.value))
      case None => UnknownPhone
      case Some(i) =>
        if password.None? || users[i].password.None? then LoginFailed
        else if !matches(password.value, users[i].password.value) then WrongPassword
        else LoggedIn(i + 1, users[i])
  }

  /** Sign-up then login: an account just created logs in with its own phone
      number and password whenever `matches` accepts a password against its
      own hash, as bcrypt's does. */
  lemma SignupThenLogin(users: seq<User>, req: SignupRequest, hash: string -> string,
                        matches: (string, string) -> bool, now: int)
    requires Signup(users, req, hash, now).0.SignedUp?
    requires matches(req.password.value, hash(req.password.value))
    ensures var r := Signup(users, req, hash, now);
      Login(r.1, req.phone, req.password, matches) == LoggedIn(r.0.id, r.0.user)
  {
    var r := Signup(users, req, hash, now);
    var p := req.phone.value;
    assert r.1[|users|] == r.0.user;
    assert ActiveWithPhone(p)(r.1[|users|]);
  }

  /** A wrong password is refused: when `matches` rejects it against the
      stored hash, login does not succeed. */
  lemma LoginNeedsMatchingPassword(users: seq<User>, phone: Option<string>, password: Option<string>,
                                   matches: (string, string) -> bool)
    requires forall k :: 0 <= k < |users| && users[k].password.Some? && password.Some? ==>
               !matches(password.value, users[k].password.value)
    ensures !Login(users, phone, password, matches).LoggedIn?
  {
  }
}

=== FILE: comments.dfy ===
/** The comment handlers: create a comment on a live post, soft-delete one's
    own comment, and list a post's comments oldest first. Each post row keeps
    a denormalised `commentCount`, which the two writers adjust in the same
    transaction as the comment row. */
module Comments {
  import opened Wrappers
  import opened JsString
  import opened JsNumber
  import opened Query
  import opened Store
  import opened DateUtils

  /** `req.user?.userId || req.user?.id`: the first non-zero of the two, if any. */
  function CallerId(claims: Claims): (r: Option<int>)
    ensures r.Some? ==> r.value != 0 && (r == claims.userId || r == claims.id)
    ensures r.None? <==> (claims.userId.None? || claims.userId == Some(0)) && (claims.id.None? || claims.id == Some(0))
    ensures claims.userId.Some? && claims.userId.value != 0 ==> r == claims.userId
  {
    if claims.userId.Some? && claims.userId.value != 0 then claims.userId
    else if claims.id.Some? && claims.id.value != 0 then claims.id
    else None
  }

  /** `SELECT id FROM posts WHERE id = ? AND deleted_at IS NULL` finds the post. */
  predicate PostLive(posts: seq<Post>, id: int) {
    HasRow(posts, id) && posts[id - 1].deletedAt.None?
  }

  /** `SELECT ... FROM comments WHERE id = ? AND deleted_at IS NULL` finds the comment. */
  predicate CommentLive(comments: seq<Comment>, id: int) {
    HasRow(comments, id) && comments[id - 1].deletedAt.None?
  }

  /** The comments that count towards post `pid`: on that post and not deleted. */
  function LiveFor(pid: int): (nat, Comment) -> bool {
    (k: nat, c: Comment) => c.postId == pid && c.deletedAt.None?
  }

  /** The invariant both writers keep: every post's `commentCount` is the
      number of its comments that are not deleted. */
  predicate CountsConsistent(db: Db) {
    forall i :: 0 <= i < |db.posts| ==> db.posts[i].commentCount == Count(db.comments, LiveFor(i + 1))
  }

  datatype CreateOutcome =
    | CreateUnauthorized
    | CreateInvalidPostId
    | EmptyContent
    | PostNotFound
    | Created(id: nat, postId: int, userId: int, text: string)

  function CreateStatus(o: CreateOutcome): int {
    match o
    case CreateUnauthorized => 401
    case CreateInvalidPostId => 400
    case EmptyContent => 400
    case PostNotFound => 404
    case Created(_, _, _, _) => 201
  }

  datatype CreateStep = CreateStep(outcome: CreateOutcome, db: Db)

  /** `createComment`. `postId` is the request body's field as sent; `now`
      stands for the database's `NOW()`. */
  function CreateComment(db: Db, claims: Claims, postId: JsValue, content: Option<string>, now: int): (r: CreateStep)
    ensures r.outcome == CreateUnauthorized <==> CallerId(claims).None?
    ensures r.outcome == CreateInvalidPostId <==> CallerId(claims).Some? && Falsy(ToNumber(postId))
    ensures r.outcome == EmptyContent <==>
      CallerId(claims).Some? && !Falsy(ToNumber(postId)) && (content.None? || |Trim(content.value)| == 0)
    ensures r.outcome == PostNotFound ==> !PostLive(db.posts, ToNumber(postId).value)
    ensures !r.outcome.Created? ==> r.db == db
    ensures r.outcome.Created? ==>
      var pid := r.outcome.postId;
      && CallerId(claims) == Some(r.outcome.userId)
      && ToNumber(postId) == Int(pid) && PostLive(db.posts, pid)
      && content.Some? && r.outcome.text == Trim(content.value) && |r.outcome.text| > 0
      && r.outcome.id == |db.comments| + 1
      && r.db.users == db.users
      && r.db.comments == db.comments + [Comment(pid, r.outcome.userId, r.outcome.text, 0, "active", now, None)]
      && |r.db.posts| == |db.posts|
      && r.db.posts[pid - 1] == db.posts[pid - 1].(commentCount := db.posts[pid - 1].commentCount + 1)
      && (forall i :: 0 <= i < |db.posts| && i != pid - 1 ==> r.db.posts[i] == db.posts[i])
  {
    match CallerId(claims)
    case None => CreateStep(CreateUnauthorized, db)
    case Some(uid) =>
      var n := ToNumber(postId);
      if Falsy(n) then CreateStep(CreateInvalidPostId, db)
      else if content.None? || |Trim(content.value)| == 0 then CreateStep(EmptyContent, db)
      else if !PostLive(db.posts, n.value) then CreateStep(PostNotFound, db)
      else
        var pid := n.value;
        var text := Trim(content.value);
        var p := db.posts[pid - 1];
        var posts := db.posts[pid - 1 := p.(commentCount := p.commentCount + 1)];
        var comments := db.comments + [Comment(pid, uid, text, 0, "active", now, None)];
        CreateStep(Created(|db.comments| + 1, pid, uid, text), Db(db.users, posts, comments))
  }

  /** Creating a comment keeps every post's count equal to its live comments. */
  lemma CreateKeepsCounts(db: Db, claims: Claims, postId: JsValue, content: Option<string>, now: int)
    requires CountsConsistent(db)
    ensures CountsConsistent(CreateComment(db, claims, postId, content, now).db)
  {
    var r := CreateComment(db, claims, postId, content, now);
    if r.outcome.Created? {
      var pid := r.outcome.postId;
      var c := Comment(pid, r.outcome.userId, r.outcome.text, 0, "active", now, None);
      forall i | 0 <= i < |r.db.posts|
        ensures r.db.posts[i].commentCount == Count(r.db.comments, LiveFor(i + 1))
      {
        CountAppend(db.comments, c, LiveFor(i + 1));
      }
    }
  }

  datatype DeleteOutcome =
    | DeleteUnauthorized
    | InvalidCommentId
    | CommentNotFound
    | NotAuthor
    | Deleted

  function DeleteStatus(o: DeleteOutcome): int {
    match o
    case DeleteUnauthorized => 401
    case InvalidCommentId => 400
    case CommentNotFound => 404
    case NotAuthor => 403
    case Deleted => 200
  }

  datatype DeleteStep = DeleteStep(outcome: DeleteOutcome, db: Db)

  /** `CASE WHEN comment_count > 0 THEN comment_count - 1 ELSE 0 END` */
  function Decrement(count: int): (r: int)
    ensures r >= 0
    ensures count > 0 ==> r == count - 1
    ensures count <= 0 ==> r == 0
  {
    if count > 0 then count - 1 else 0
  }

  /** `deleteComment`: `commentId` is the path segment; `now` stands for `NOW()`. */
  function DeleteComment(db: Db, claims: Claims, commentId: string, now: int): (r: DeleteStep)
    ensures r.outcome == DeleteUnauthorized <==> CallerId(claims).None?
    ensures r.outcome == InvalidCommentId <==> CallerId(claims).Some? && Falsy(StringToNumber(commentId))
    ensures r.outcome == CommentNotFound <==>
      CallerId(claims).Some? && !Falsy(StringToNumber(commentId))
      && !CommentLive(db.comments, StringToNumber(commentId).value)
    ensures r.outcome == NotAuthor <==>
      CallerId(claims).Some? && !Falsy(StringToNumber(commentId))
      && CommentLive(db.comments, StringToNumber(commentId).value)
      && db.comments[StringToNumber(commentId).value - 1].authorId != CallerId(claims).value
    ensures r.outcome != Deleted ==> r.db == db
    ensures r.outcome == Deleted ==>
      var i := StringToNumber(commentId).value - 1;
      var c := db.comments[i];
      var q := c.postId;
      && 0 <= i < |db.comments|
      && r.db.users == db.users
      && r.db.comments == db.comments[i := c.(deletedAt := Some(now))]
      && |r.db.posts| == |db.posts|
      && (HasRow(db.posts, q) ==>
            r.db.posts[q - 1] == db.posts[q - 1].(commentCount := Decrement(db.posts[q - 1].commentCount)))
      && (forall j :: 0 <= j < |db.posts| && j != q - 1 ==> r.db.posts[j] == db.posts[j])
  {
    match CallerId(claims)
    case None => DeleteStep(DeleteUnauthorized, db)
    case Some(uid) =>
      var n := StringToNumber(commentId);
      if Falsy(n) then DeleteStep(InvalidCommentId, db)
      else if !CommentLive(db.comments, n.value) then DeleteStep(CommentNotFound, db)
      else
        var i := n.value - 1;
        var c := db.comments[i];
        if c.authorId != uid then DeleteStep(NotAuthor, db)
        else
          var comments := db.comments[i := c.(deletedAt := Some(now))];
          var posts :=
            if HasRow(db.posts, c.postId) then
              var p := db.posts[c.postId - 1];
              db.posts[c.postId - 1 := p.(commentCount := Decrement(p.commentCount))]
            else db.posts;
          DeleteStep(Deleted, Db(db.users, posts, comments))
  }

  /** Deleting a comment keeps every post's count equal to its live comments;
      under that invariant the count being decremented is always positive,
      so the clamp at zero never applies. */
  lemma DeleteKeepsCounts(db: Db, claims: Claims, commentId: string, now: int)
    requires CountsConsistent(db)
    ensures CountsConsistent(DeleteComment(db, claims, commentId, now).db)
    ensures var r := DeleteComment(db, claims, commentId, now);
      r.outcome == Deleted ==>
        var q := db.comments[StringToNumber(commentId).value - 1].postId;
        HasRow(db.posts, q) ==> db.posts[q - 1].commentCount > 0
  {
    var r := DeleteComment(db, claims, commentId, now);
    if r.outcome == Deleted {
      var i := StringToNumber(commentId).value - 1;
      SoftDeleteKeepsCounts(db, r.db, i, now);
    }
  }

  /** The counting argument behind `DeleteKeepsCounts`, for the state the
      handler leaves behind: live comment i soft-deleted, and its post's
      count, if the post exists, decremented. */
  lemma SoftDeleteKeepsCounts(db: Db, db': Db, i: nat, now: int)
    requires CountsConsistent(db)
    requires i < |db.comments| && db.comments[i].deletedAt.None?
    requires db'.comments == db.comments[i := db.comments[i].(deletedAt := Some(now))]
    requires |db'.posts| == |db.posts|
    requires var q := db.comments[i].postId;
      && (HasRow(db.posts, q) ==>
            db'.posts[q - 1] == db.posts[q - 1].(commentCount := Decrement(db.posts[q - 1].commentCount)))
      && (forall j :: 0 <= j < |db.posts| && j != q - 1 ==> db'.posts[j] == db.posts[j])
    ensures CountsConsistent(db')
    ensures HasRow(db.posts, db.comments[i].postId) ==> db.posts[db.comments[i].postId - 1].commentCount > 0
  {
    var c := db.comments[i];
    var c' := c.(deletedAt := Some(now));
    if HasRow(db.posts, c.postId) {
      CountUpdate(db.comments, i, c', LiveFor(c.postId));
      assert LiveFor(c.postId)(i, c);
      assert db.posts[c.postId - 1].commentCount == Count(db.comments, LiveFor(c.postId - 1 + 1));
    }
    forall j | 0 <= j < |db'.posts|
      ensures db'.posts[j].commentCount == Count(db'.comments, LiveFor(j + 1))
    {
      CountUpdate(db.comments, i, c', LiveFor(j + 1));
      if j == c.postId - 1 {
        assert LiveFor(j + 1)(i, c);
      }
    }
  }

  /** A deleted comment stays deleted: deleting it again finds nothing. */
  lemma DeleteIsFinal(db: Db, claims: Claims, commentId: string, now: int, later: int)
    requires DeleteComment(db, claims, commentId, now).outcome == Deleted
    ensures DeleteComment(DeleteComment(db, claims, commentId, now).db, claims, commentId, later).outcome
         == CommentNotFound
  {
  }

  /** A comment listed under a post, joined with its author's row. */
  datatype CommentRow = CommentRow(
    id: nat,
    postId: int,
    text: string,
    createdAt: int,
    time: Age,
    userId: int,
    userName: string,
    userAvatar: Option<string>)

  /** `c.post_id = ? AND c.deleted_at IS NULL` with the `INNER JOIN users`
      finding the author. */
  function Listed(users: seq<User>, pid: int): (nat, Comment) -> bool {
    (k: nat, c: Comment) => c.postId == pid && c.deletedAt.None? && HasRow(users, c.authorId)
  }

  /** The selected columns of comment k, with `getRelativeTime` at `now`. */
  function RowOf(users: seq<User>, now: int): (nat, Comment) -> CommentRow {
    (k: nat, c: Comment) =>
      var name := if HasRow(users, c.authorId) then users[c.authorId - 1].username else "";
      var avatar := if HasRow(users, c.authorId) then users[c.authorId - 1].profileImage else None;
      CommentRow(k + 1, c.postId, c.content, c.createdAt, RelativeAge(Some(c.createdAt), now), c.authorId, name, avatar)
  }

  const ByCreatedAt: CommentRow -> int := (row: CommentRow) => row.createdAt

  datatype ListOutcome = ListInvalidPostId | CommentList(postId: int, comments: seq<CommentRow>)

  function ListStatus(o: ListOutcome): int {
    if o.CommentList? then 200 else 400
  }

  /** `Number(req.params.postId || req.query.postId)`: an absent query
      parameter is `undefined`. */
  function PostIdParam(param: Option<string>, query: Option<string>): (v: JsValue)
    ensures Truthy(param) ==> v == Str(param.value)
    ensures !Truthy(param) && query.Some? ==> v == Str(query.value)
    ensures !Truthy(param) && query.None? ==> v == Undefined
  {
    if Truthy(param) then Str(param.value)
    else match query
      case None => Undefined
      case Some(q) => Str(q)
  }

  /** `getCommentsByPost`, ordered by creation time, oldest first. */
  function GetCommentsByPost(db: Db, param: Option<string>, query: Option<string>, now: int): (r: ListOutcome)
    ensures r.ListInvalidPostId? <==> Falsy(ToNumber(PostIdParam(param, query)))
    ensures r.CommentList? ==>
      && ToNumber(PostIdParam(param, query)) == Int(r.postId)
      && SortedBy(r.comments, ByCreatedAt)
      && multiset(r.comments) == multiset(Select(db.comments, Listed(db.users, r.postId), RowOf(db.users, now)))
  {
    var n := ToNumber(PostIdParam(param, query));
    if Falsy(n) then ListInvalidPostId
    else
      var rows := Select(db.comments, Listed(db.users, n.value), RowOf(db.users, now));
      CommentList(n.value, SortBy(rows, ByCreatedAt))
  }

  /** The post id is read with `Number`, from the path, or from the query
      when the path has none: a positive decimal id lists that post's
      comments, and 0 is refused. */
  lemma ListReadsPostId(db: Db, param: Option<string>, query: Option<string>, n: nat, now: int)
    ensures var r := GetCommentsByPost(db, Some(DecimalString(n)), query, now);
      && (n == 0 <==> r == ListInvalidPostId)
      && (n > 0 ==> r.CommentList? && r.postId == n)
    ensures !Truthy(param) ==>
      var r := GetCommentsByPost(db, param, Some(DecimalString(n)), now);
      && (n == 0 <==> r == ListInvalidPostId)
      && (n > 0 ==> r.CommentList? && r.postId == n)
  {
    StringToNumberReadsDecimal(n);
    assert ToNumber(PostIdParam(Some(DecimalString(n)), query)) == Int(n);
    assert !Truthy(param) ==> ToNumber(PostIdParam(param, Some(DecimalString(n)))) == Int(n);
  }

  /** The joined row of comment k carries the comment's id, post, text,
      creation instant and age at `now`, and its author's id, username and
      avatar. */
  lemma RowOfFields(users: seq<User>, now: int, k: nat, c: Comment)
    requires HasRow(users, c.authorId)
    ensures var row := RowOf(users, now)(k, c);
      && row.id == k + 1 && row.postId == c.postId && row.text == c.content
      && row.createdAt == c.createdAt && row.time == RelativeAge(Some(c.createdAt), now)
      && row.userId == c.authorId && row.userName == users[c.authorId - 1].username
      && row.userAvatar == users[c.authorId - 1].profileImage
  {
  }

  /** A row is listed exactly when it is the joined row of a live comment of
      the post whose author exists. */
  lemma ListingContents(db: Db, param: Option<string>, query: Option<string>, now: int)
    requires GetCommentsByPost(db, param, query, now).CommentList?
    ensures var r := GetCommentsByPost(db, param, query, now);
      forall row :: row in r.comments <==>
        exists k :: 0 <= k < |db.comments| && db.comments[k].postId == r.postId
          && db.comments[k].deletedAt.None? && HasRow(db.users, db.comments[k].authorId)
          && row == RowOf(db.users, now)(k, db.comments[k])
  {
    var r := GetCommentsByPost(db, param, query, now);
    ListedMembers(db, r.postId, now, r.comments);
  }

  /** Any reordering of the post's selected rows holds exactly the joined
      rows of its live comments whose author exists. */
  lemma ListedMembers(db: Db, pid: int, now: int, rows: seq<CommentRow>)
    requires multiset(rows) == multiset(Select(db.comments, Listed(db.users, pid), RowOf(db.users, now)))
    ensures forall row :: row in rows <==>
      exists k :: 0 <= k < |db.comments| && db.comments[k].postId == pid
        && db.comments[k].deletedAt.None? && HasRow(db.users, db.comments[k].authorId)
        && row == RowOf(db.users, now)(k, db.comments[k])
  {
    var selected := Select(db.comments, Listed(db.users, pid), RowOf(db.users, now));
    SelectMembers(db.comments, Listed(db.users, pid), RowOf(db.users, now));
    MultisetSameMembers(rows, selected);
  }

  /** With every commenter's account present, a post lists as many comments
      as its `commentCount` says. */
  lemma ListingMatchesCount(db: Db, param: Option<string>, query: Option<string>, now: int)
    requires CountsConsistent(db)
    requires forall k :: 0 <= k < |db.comments| ==> HasRow(db.users, db.comments[k].authorId)
    requires GetCommentsByPost(db, param, query, now).CommentList?
    requires HasRow(db.posts, GetCommentsByPost(db, param, query, now).postId)
    ensures var r := GetCommentsByPost(db, param, query, now);
      |r.comments| == db.posts[r.postId - 1].commentCount
  {
    var r := GetCommentsByPost(db, param, query, now);
    var pid := r.postId;
    var rows := Select(db.comments, Listed(db.users, pid), RowOf(db.users, now));
    assert |r.comments| == |rows|;
    SelectCount(db.comments, Listed(db.users, pid), RowOf(db.users, now));
    forall k | 0 <= k < |db.comments|
      ensures Listed(db.users, pid)(k, db.comments[k]) == LiveFor(pid)(k, db.comments[k])
    {
    }
    CountSameVerdicts(db.comments, Listed(db.users, pid), LiveFor(pid));
  }

  /** Two filters that agree on every row count the same rows. */
  lemma {:induction false} CountSameVerdicts<T>(table: seq<T>, p: (nat, T) -> bool, q: (nat, T) -> bool)
    requires forall k :: 0 <= k < |table| ==> p(k, table[k]) == q(k, table[k])
    ensures Count(table, p) == Count(table, q)
  {
    if |table| > 0 {
      var n := |table| - 1;
      CountSameVerdicts(table[..n], p, q);
    }
  }

  /** A comment just created shows up in its post's listing, under the new
      id and with the trimmed text, when its author's account exists. */
  lemma CreateThenList(db: Db, claims: Claims, postId: JsValue, content: Option<string>, now: int, later: int)
    requires CreateComment(db, claims, postId, content, now).outcome.Created?
    requires HasRow(db.users, CreateComment(db, claims, postId, content, now).outcome.userId)
    ensures var c := CreateComment(db, claims, postId, content, now);
      var l := GetCommentsByPost(c.db, Some(DecimalString(c.outcome.postId)), None, later);
      && l.CommentList? && l.postId == c.outcome.postId
      && exists row :: row in l.comments && row.id == c.outcome.id && row.text == c.outcome.text
                    && row.userId == c.outcome.userId
  {
    var c := CreateComment(db, claims, postId, content, now);
    var pid := c.outcome.postId;
    ListReadsPostId(c.db, None, None, pid, later);
    var l := GetCommentsByPost(c.db, Some(DecimalString(pid)), None, later);
    ListingContents(c.db, Some(DecimalString(pid)), None, later);
    var k := |db.comments|;
    var cm := c.db.comments[k];
    assert cm.postId == pid && cm.deletedAt.None? && HasRow(c.db.users, cm.authorId);
    var row := RowOf(c.db.users, later)(k, cm);
    assert row in l.comments;
    RowOfFields(c.db.users, later, k, cm);
  }
}

=== FILE: date_utils.dfy ===
/** `getRelativeTime`: how long ago an instant was, as the Korean labels the
    feed and comment lists show. Instants are integer milliseconds. The
    stored instant is shifted forward by nine hours (UTC read as Korean
    time) before it is compared with the clock. */
module DateUtils {
  import opened Wrappers
  import opened JsString
  import opened JsNumber
  import opened Arith

  const SecondMs: int := 1000
  const MinuteMs: int := 60 * SecondMs
  const HourMs: int := 60 * MinuteMs
  const DayMs: int := 24 * HourMs
  /** `setHours(getHours() + 9)` */
  const KstShiftMs: int := 9 * HourMs

  /** The bucket an age falls in. `CalendarDate` carries the shifted instant,
      which the handler prints as a calendar date. */
  datatype Age =
    | NoDate
    | JustNow
    | MinutesAgo(minutes: nat)
    | HoursAgo(hours: nat)
    | DaysAgo(days: nat)
    | CalendarDate(shifted: int)

  /** The bucketing of `getRelativeTime(date)` at clock reading `now`. */
  function RelativeAge(date: Option<int>, now: int): (a: Age)
    ensures a == NoDate <==> date.None?
  {
    match date
    case None => NoDate
    case Some(t) =>
      var target := t + KstShiftMs;
      var diff := now - target;
      if diff < 0 then JustNow
      else
        var seconds := diff / 1000;
        var minutes := seconds / 60;
        var hours := minutes / 60;
        var days := hours / 24;
        if seconds < 60 then JustNow
        else if minutes < 60 then MinutesAgo(minutes)
        else if hours < 24 then HoursAgo(hours)
        else if days < 7 then DaysAgo(days)
        else CalendarDate(target)
  }

  /** The milliseconds elapsed since the shifted instant. */
  function Elapsed(t: int, now: int): int {
    now - (t + KstShiftMs)
  }

  /** Successive floor divisions are one division by the product. */
  lemma NestedDivisions(diff: nat)
    ensures diff / 1000 / 60 == diff / MinuteMs
    ensures diff / 1000 / 60 / 60 == diff / HourMs
    ensures diff / 1000 / 60 / 60 / 24 == diff / DayMs
  {
  }

  /** Exactly one bucket applies, chosen by the elapsed time alone:
      under a minute (or in the future) is "just now", then whole minutes
      1..59, whole hours 1..23, whole days 1..6, and a calendar date from
      seven days on. */
  lemma RelativeAgeBuckets(t: int, now: int)
    ensures var a := RelativeAge(Some(t), now); var d := Elapsed(t, now);
      && (a.JustNow? <==> d < MinuteMs)
      && (a.MinutesAgo? <==> MinuteMs <= d < HourMs)
      && (a.HoursAgo? <==> HourMs <= d < DayMs)
      && (a.DaysAgo? <==> DayMs <= d < 7 * DayMs)
      && (a.CalendarDate? <==> 7 * DayMs <= d)
      && (a.MinutesAgo? ==> a.minutes == d / MinuteMs && 1 <= a.minutes <= 59)
      && (a.HoursAgo? ==> a.hours == d / HourMs && 1 <= a.hours <= 23)
      && (a.DaysAgo? ==> a.days == d / DayMs && 1 <= a.days <= 6)
      && (a.CalendarDate? ==> a.shifted == t + KstShiftMs)
  {
    var d := Elapsed(t, now);
    if d >= 0 {
      NestedDivisions(d);
    }
  }

  /** Order of the buckets from youngest to oldest. */
  function Rank(a: Age): nat {
    match a
    case NoDate => 0
    case JustNow => 0
    case MinutesAgo(_) => 1
    case HoursAgo(_) => 2
    case DaysAgo(_) => 3
    case CalendarDate(_) => 4
  }

  /** As the clock advances an item only ages: its bucket never moves back
      and the count inside a bucket never decreases. */
  lemma RelativeAgeMonotone(t: int, now1: int, now2: int)
    requires now1 <= now2
    ensures Rank(RelativeAge(Some(t), now1)) <= Rank(RelativeAge(Some(t), now2))
    ensures var a1 := RelativeAge(Some(t), now1); var a2 := RelativeAge(Some(t), now2);
      && (a1.MinutesAgo? && a2.MinutesAgo? ==> a1.minutes <= a2.minutes)
      && (a1.HoursAgo? && a2.HoursAgo? ==> a1.hours <= a2.hours)
      && (a1.DaysAgo? && a2.DaysAgo? ==> a1.days <= a2.days)
  {
    RelativeAgeBuckets(t, now1);
    RelativeAgeBuckets(t, now2);
    var d1 := Elapsed(t, now1);
    var d2 := Elapsed(t, now2);
    assert d1 <= d2;
    if d1 >= 0 {
      DivMonotone(d1, d2, MinuteMs);
      DivMonotone(d1, d2, HourMs);
      DivMonotone(d1, d2, DayMs);
    }
  }

  const JustNowLabel: string := "방금 전"
  const MinutesSuffix: string := "분 전"
  const HoursSuffix: string := "시간 전"
  const DaysSuffix: string := "일 전"

  /** The text `getRelativeTime` returns for every bucket but the calendar date. */
  function Label(a: Age): (text: string)
    requires !a.CalendarDate?
    ensures |text| == 0 <==> a == NoDate
  {
    match a
    case NoDate => ""
    case JustNow => JustNowLabel
    case MinutesAgo(n) => DecimalString(n) + MinutesSuffix
    case HoursAgo(n) => DecimalString(n) + HoursSuffix
    case DaysAgo(n) => DecimalString(n) + DaysSuffix
  }

  function AgeCount(a: Age): nat {
    match a
    case MinutesAgo(n) => n
    case HoursAgo(n) => n
    case DaysAgo(n) => n
    case _ => 0
  }

  lemma SuffixedReadsBack(n: nat, suffix: string)
    requires |suffix| > 0 && !IsDecimalDigit(suffix[0])
    ensures ParseInt(DecimalString(n) + suffix, Ten) == Int(n)
  {
    var d := DecimalString(n);
    var s := d + suffix;
    assert s[0] == d[0] && !IsSpace(s[0]) && s[0] != '-' && s[0] != '+';
    assert LeadingRun(s, IsSpace) == 0;
    assert s[0..] == s;
    ParseUnsignedOfDecimal(n, suffix, Ten);
  }

  /** The number at the head of a minutes, hours or days label reads back
      with `parseInt` as the bucket's count. */
  lemma LabelReadsBack(a: Age)
    requires a.MinutesAgo? || a.HoursAgo? || a.DaysAgo?
    ensures ParseInt(Label(a), Ten) == Int(AgeCount(a))
  {
    match a
    case MinutesAgo(n) => SuffixedReadsBack(n, MinutesSuffix);
    case HoursAgo(n) => SuffixedReadsBack(n, HoursSuffix);
    case DaysAgo(n) => SuffixedReadsBack(n, DaysSuffix);
  }

  /** Different buckets are shown with different labels. */
  lemma LabelInjective(a: Age, b: Age)
    requires !a.CalendarDate? && !b.CalendarDate?
    requires Label(a) == Label(b)
    ensures a == b
  {
    if a.NoDate? || b.NoDate? {
      assert |Label(a)| == 0 && |Label(b)| == 0;
    } else if a.JustNow? || b.JustNow? {
      assert !IsDecimalDigit(JustNowLabel[0]);
    } else {
      LabelReadsBack(a);
      LabelReadsBack(b);
      var d := DecimalString(AgeCount(a));
      assert Label(a)[|d|] == if a.MinutesAgo? then '분' else if a.HoursAgo? then '시' else '일';
      assert Label(b)[|d|] == if b.MinutesAgo? then '분' else if b.HoursAgo? then '시' else '일';
    }
  }
}

=== FILE: feed.dfy ===
/** `getFeed`: live posts of type "feed" whose author exists, optionally
    restricted to senior-mode or normal-mode posts, newest first, one page at
    a time. The handler asks the database for one row more than the page
    size and reports whether that extra row exists as `hasNext`. */
module Feed {
  import opened Wrappers
  import opened JsString
  import opened JsNumber
  import opened Query
  import opened Store

  const AllModes: string := "all"
  const SeniorModeName: string := "senior"
  const NormalModeName: string := "normal"
  const FeedType: string := "feed"
  const DefaultFeedPage: int := 1
  const DefaultFeedSize: int := 10

  /** `req.query.mode || "all"` */
  function FeedMode(raw: Option<string>): (mode: string)
    ensures Truthy(raw) ==> mode == raw.value
    ensures !Truthy(raw) ==> mode == AllModes
  {
    OrElse(raw, AllModes)
  }

  /** `parseInt(raw) || fallback`: NaN and zero give the fallback, any other
      integer, negative ones included, is kept. */
  function IntOr(raw: Option<string>, fallback: int): (v: int)
    ensures var n := ParseIntParam(raw, Unspecified);
      && (Falsy(n) ==> v == fallback)
      && (!Falsy(n) ==> v == n.value && v != 0)
  {
    var n := ParseIntParam(raw, Unspecified);
    if Falsy(n) then fallback else n.value
  }

  /** The `is_senior_mode` condition the mode adds: only "senior" and
      "normal" restrict, every other mode shows both kinds. */
  predicate ModeAllows(mode: string, p: Post) {
    && (mode == SeniorModeName ==> p.isSeniorMode)
    && (mode == NormalModeName ==> !p.isSeniorMode)
  }

  /** `p.deleted_at IS NULL AND p.post_type = 'feed'`, the mode condition,
      and the `INNER JOIN users` finding the author. */
  function FeedKeep(users: seq<User>, mode: string): (nat, Post) -> bool {
    (k: nat, p: Post) => p.deletedAt.None? && p.postType == FeedType && HasRow(users, p.authorId) && ModeAllows(mode, p)
  }

  /** One feed entry with its author's name and picture. */
  datatype FeedItem = FeedItem(
    id: nat,
    authorId: int,
    authorName: Option<string>,
    authorImage: Option<string>,
    content: string,
    imageUrl: Option<string>,
    postType: string,
    isSeniorMode: bool,
    likeCount: int,
    commentCount: int,
    createdAt: int)

  function ItemOf(users: seq<User>): (nat, Post) -> FeedItem {
    (k: nat, p: Post) =>
      var name := if HasRow(users, p.authorId) then users[p.authorId - 1].name else None;
      var image := if HasRow(users, p.authorId) then users[p.authorId - 1].profileImage else None;
      FeedItem(k + 1, p.authorId, name, image, p.content, p.imageUrl, p.postType, p.isSeniorMode,
               p.likeCount, p.commentCount, p.createdAt)
  }

  /** `ORDER BY p.created_at DESC` as an ascending key. */
  const NewestFirst: FeedItem -> int := (item: FeedItem) => -item.createdAt

  /** Every post the feed would show in this mode, newest first: the result
      the page is cut from. */
  function FeedList(db: Db, mode: string): (r: seq<FeedItem>)
    ensures SortedBy(r, NewestFirst)
    ensures multiset(r) == multiset(Select(db.posts, FeedKeep(db.users, mode), ItemOf(db.users)))
    ensures |r| == Count(db.posts, FeedKeep(db.users, mode))
    ensures forall item :: item in r <==>
      exists k :: 0 <= k < |db.posts| && FeedKeep(db.users, mode)(k, db.posts[k])
        && item == ItemOf(db.users)(k, db.posts[k])
  {
    var rows := Select(db.posts, FeedKeep(db.users, mode), ItemOf(db.users));
    SelectMembers(db.posts, FeedKeep(db.users, mode), ItemOf(db.users));
    SelectCount(db.posts, FeedKeep(db.users, mode), ItemOf(db.users));
    var r := SortBy(rows, NewestFirst);
    MultisetSameMembers(r, rows);
    r
  }

  datatype FeedOutcome =
    | FeedDbError
    | FeedPage(items: seq<FeedItem>, page: int, size: int, hasNext: bool)

  function FeedStatus(o: FeedOutcome): int {
    if o.FeedPage? then 200 else 500
  }

  /** The `OFFSET` the handler computes. */
  function FeedOffset(page: int, size: int): int {
    (page - 1) * size
  }

  /** One page of the candidate list `all`: the statement's `LIMIT size + 1
      OFFSET (page - 1) * size`, then `hasNext` and the first `size` rows.
      A negative `LIMIT` or `OFFSET` makes the statement fail, which the
      handler reports as a server error. */
  function PageOf(all: seq<FeedItem>, page: int, size: int): (r: FeedOutcome)
    ensures r.FeedDbError? <==> FeedOffset(page, size) < 0 || size + 1 < 0
    ensures r.FeedPage? ==>
      var offset := FeedOffset(page, size);
      && r.page == page && r.size == size && 0 <= offset && size >= -1
      && (r.hasNext <==> |Window(all, offset, size + 1)| > size)
      && |r.items| <= |Window(all, offset, size + 1)|
      && (forall i :: 0 <= i < |r.items| ==> r.items[i] == all[offset + i])
  {
    var offset := FeedOffset(page, size);
    var limit := size + 1;
    if offset < 0 || limit < 0 then FeedDbError
    else
      var rows := Window(all, offset, limit);
      FeedPage(SliceTo(rows, size), page, size, |rows| > size)
  }

  /** How many posts a page holds: none for a size of 0 or -1, otherwise
      `size`, or fewer when the window runs past the end of the list. */
  lemma PageLength(all: seq<FeedItem>, page: int, size: int)
    requires PageOf(all, page, size).FeedPage?
    ensures var r := PageOf(all, page, size);
      var window := Window(all, FeedOffset(page, size), size + 1);
      |r.items| == (if size <= 0 then 0 else if |window| < size then |window| else size)
  {
  }

  /** `getFeed`: the page of the mode's candidates that the page and size
      parameters select. */
  function GetFeed(db: Db, modeRaw: Option<string>, pageRaw: Option<string>, sizeRaw: Option<string>): (r: FeedOutcome)
    ensures var page := IntOr(pageRaw, DefaultFeedPage); var size := IntOr(sizeRaw, DefaultFeedSize);
      && (r.FeedDbError? <==> FeedOffset(page, size) < 0 || size + 1 < 0)
      && r == PageOf(FeedList(db, FeedMode(modeRaw)), page, size)
  {
    PageOf(FeedList(db, FeedMode(modeRaw)), IntOr(pageRaw, DefaultFeedPage), IntOr(sizeRaw, DefaultFeedSize))
  }

  /** With a positive size, a page is the run of `size` posts starting at the
      offset (or what is left of the list), and `hasNext` says exactly that
      posts remain after it. */
  lemma PageIsSlice(all: seq<FeedItem>, page: int, size: int)
    requires PageOf(all, page, size).FeedPage? && size >= 1
    ensures var r := PageOf(all, page, size);
      var offset := FeedOffset(page, size);
      && (r.hasNext <==> |all| > offset + size)
      && (offset >= |all| ==> r.items == [])
      && (offset < |all| ==> r.items == all[offset..if offset + size < |all| then offset + size else |all|])
      && |r.items| <= size
  {
    var r := PageOf(all, page, size);
    var offset := FeedOffset(page, size);
    var rows := Window(all, offset, size + 1);
    if offset < |all| {
      var e := if offset + size < |all| then offset + size else |all|;
      assert |r.items| == e - offset;
      forall i | 0 <= i < |r.items|
        ensures r.items[i] == all[offset..e][i]
      {
      }
    }
  }

  /** Consecutive pages of the same positive size follow on from each other:
      a page with a next page is full, and the next page starts with the
      post right after its last. */
  lemma PagesFollowOn(all: seq<FeedItem>, page: int, size: int)
    requires PageOf(all, page, size).FeedPage? && PageOf(all, page + 1, size).FeedPage? && size >= 1
    ensures var a := PageOf(all, page, size);
      var b := PageOf(all, page + 1, size);
      a.hasNext ==>
        && |a.items| == size && |b.items| > 0
        && all[FeedOffset(page, size) + size] == b.items[0]
  {
    PageIsSlice(all, page, size);
    PageIsSlice(all, page + 1, size);
    assert FeedOffset(page + 1, size) == FeedOffset(page, size) + size;
  }

  /** The answer to a request, for a positive size: the `size` candidates
      from offset `(page - 1) * size` on (or what is left of the list), with
      `hasNext` saying exactly that more candidates remain, where page and
      size are the parameters read with `parseInt` and defaulted. */
  lemma GetFeedPage(db: Db, modeRaw: Option<string>, pageRaw: Option<string>, sizeRaw: Option<string>)
    ensures var r := GetFeed(db, modeRaw, pageRaw, sizeRaw);
      var all := FeedList(db, FeedMode(modeRaw));
      var page := IntOr(pageRaw, DefaultFeedPage);
      var size := IntOr(sizeRaw, DefaultFeedSize);
      var offset := FeedOffset(page, size);
      r.FeedPage? && size >= 1 ==>
        && r.page == page && r.size == size && offset >= 0
        && (r.hasNext <==> |all| > offset + size)
        && (offset >= |all| ==> r.items == [])
        && (offset < |all| ==> r.items == all[offset..if offset + size < |all| then offset + size else |all|])
  {
    var all := FeedList(db, FeedMode(modeRaw));
    var page := IntOr(pageRaw, DefaultFeedPage);
    var size := IntOr(sizeRaw, DefaultFeedSize);
    var r := GetFeed(db, modeRaw, pageRaw, sizeRaw);
    assert r == PageOf(all, page, size);
    if r.FeedPage? && size >= 1 {
      PageIsSlice(all, page, size);
    }
  }

  /** Without a mode, with "all", or with any mode other than "senior" and
      "normal", the candidates are the live feed posts of existing authors of
      both kinds. */
  lemma FeedUnfilteredModes(db: Db, modeRaw: Option<string>)
    ensures !Truthy(modeRaw) ==> FeedMode(modeRaw) == AllModes
    ensures var mode := FeedMode(modeRaw);
      mode != SeniorModeName && mode != NormalModeName ==>
        forall item :: item in FeedList(db, mode) <==>
          exists k :: 0 <= k < |db.posts| && db.posts[k].deletedAt.None? && db.posts[k].postType == FeedType
            && HasRow(db.users, db.posts[k].authorId) && item == ItemOf(db.users)(k, db.posts[k])
  {
  }

  /** Every item shown is a live feed post whose author exists and whose
      senior flag agrees with the requested mode, and items come newest
      first. Stated for every page and size of the mode's candidate list,
      which is every answer `GetFeed` gives. */
  lemma FeedItemsMatchMode(db: Db, mode: string, page: int, size: int)
    requires PageOf(FeedList(db, mode), page, size).FeedPage?
    ensures var r := PageOf(FeedList(db, mode), page, size);
      && SortedBy(r.items, NewestFirst)
      && forall i :: 0 <= i < |r.items| ==>
           var k := r.items[i].id - 1;
           && 0 <= k < |db.posts| && db.posts[k].deletedAt.None? && db.posts[k].postType == FeedType
           && HasRow(db.users, db.posts[k].authorId)
           && (mode == SeniorModeName ==> r.items[i].isSeniorMode)
           && (mode == NormalModeName ==> !r.items[i].isSeniorMode)
  {
    var all := FeedList(db, mode);
    var r := PageOf(all, page, size);
    PageItemsFromList(all, page, size);
    forall i | 0 <= i < |r.items|
      ensures var k := r.items[i].id - 1;
        && 0 <= k < |db.posts| && FeedKeep(db.users, mode)(k, db.posts[k])
        && r.items[i].isSeniorMode == db.posts[k].isSeniorMode
    {
      FeedListMember(db, mode, r.items[i]);
    }
  }

  /** A candidate is the item of the post row its id names. */
  lemma FeedListMember(db: Db, mode: string, item: FeedItem)
    requires item in FeedList(db, mode)
    ensures var k := item.id - 1;
      && 0 <= k < |db.posts| && FeedKeep(db.users, mode)(k, db.posts[k])
      && item == ItemOf(db.users)(k, db.posts[k])
  {
    var k :| 0 <= k < |db.posts| && FeedKeep(db.users, mode)(k, db.posts[k]) && item == ItemOf(db.users)(k, db.posts[k]);
    assert item.id == k + 1;
  }

  /** The items of a page are candidates, in the candidates' order. */
  lemma PageItemsFromList(all: seq<FeedItem>, page: int, size: int)
    requires PageOf(all, page, size).FeedPage?
    ensures var r := PageOf(all, page, size);
      && (forall i :: 0 <= i < |r.items| ==> r.items[i] in all)
      && (SortedBy(all, NewestFirst) ==> SortedBy(r.items, NewestFirst))
  {
    var r := PageOf(all, page, size);
    var offset := FeedOffset(page, size);
    forall i | 0 <= i < |r.items|
      ensures r.items[i] in all
    {
      assert r.items[i] == all[offset + i];
    }
    if SortedBy(all, NewestFirst) {
      forall i, j | 0 <= i < j < |r.items|
        ensures NewestFirst(r.items[i]) <= NewestFirst(r.items[j])
      {
        assert r.items[i] == all[offset + i];
        assert r.items[j] == all[offset + j];
      }
    }
  }

  /** A size of -1 asks for `LIMIT 0`: the page is empty and still reports
      a next page. */
  lemma FeedSizeMinusOne(db: Db, modeRaw: Option<string>)
    ensures GetFeed(db, modeRaw, None, Some("-1")) == FeedPage([], 1, -1, true)
  {
    ParseIntOfAbsent(Unspecified);
    ParseIntReadsNegative(1, "", Unspecified);
    assert "-" + DecimalString(1) + "" == "-1";
  }
}

=== FILE: js_number.dfy ===
/** The parts of JavaScript number semantics the controllers rely on:
    `Number(x)`, `parseInt(s)` and `parseInt(s, 10)`, truthiness of a number,
    and the decimal text a non-negative integer prints as. Numbers are
    modelled as NaN or an integer; fractions and infinities are left out of
    this model, so text such as "1.5" reads as NaN here. */
module JsNumber {
  import opened Wrappers
  import opened JsString

  /** A JavaScript number as far as the controllers use one. */
  datatype Num = NaN | Int(value: int)

  /** `!n`: NaN and zero are the falsy numbers. */
  predicate Falsy(n: Num) {
    n == NaN || n == Int(0)
  }

  /** A JSON request value. */
  datatype JsValue = Undefined | Null | Bool(b: bool) | Number(n: Num) | Str(s: string)

  predicate IsDecimalDigit(c: char) {
    '0' <= c <= '9'
  }

  predicate IsHexDigit(c: char) {
    IsDecimalDigit(c) || 'a' <= c <= 'f' || 'A' <= c <= 'F'
  }

  function DigitValue(c: char): (d: nat)
    requires IsHexDigit(c)
    ensures d < 16
    ensures IsDecimalDigit(c) <==> d < 10
  {
    if c <= '9' then c as int - '0' as int
    else if c >= 'a' then c as int - 'a' as int + 10
    else c as int - 'A' as int + 10
  }

  /** The value of a digit string, most significant digit first. */
  function DigitsValue(z: string, base: nat): nat
    requires forall k :: 0 <= k < |z| ==> IsHexDigit(z[k])
  {
    if |z| == 0 then 0 else DigitsValue(z[..|z| - 1], base) * base + DigitValue(z[|z| - 1])
  }

  function DigitChar(d: nat): (c: char)
    requires d < 10
    ensures IsDecimalDigit(c) && DigitValue(c) == d
  {
    ('0' as int + d) as char
  }

  /** The text `String(n)` produces for a non-negative integer. */
  function DecimalString(n: nat): (r: string)
    ensures |r| >= 1
    ensures forall k :: 0 <= k < |r| ==> IsDecimalDigit(r[k])
    ensures r[0] == '0' ==> n == 0
    ensures DigitsValue(r, 10) == n
  {
    if n < 10 then [DigitChar(n)]
    else
      var r := DecimalString(n / 10) + [DigitChar(n % 10)];
      assert r[..|r| - 1] == DecimalString(n / 10);
      r
  }

  function Pow10(k: nat): (p: nat)
    ensures p >= 1
  {
    if k == 0 then 1 else 10 * Pow10(k - 1)
  }

  /** An integer in [10^(k-1), 10^k) prints with exactly k digits. */
  lemma {:induction false} DecimalStringLength(n: nat, k: nat)
    requires 1 <= k && Pow10(k - 1) <= n < Pow10(k)
    ensures |DecimalString(n)| == k
  {
    if k > 1 {
      assert Pow10(k - 1) == 10 * Pow10(k - 2);
      assert Pow10(k) == 10 * Pow10(k - 1);
      DecimalStringLength(n / 10, k - 1);
    }
  }

  predicate HasHexPrefix(s: string) {
    |s| >= 2 && s[0] == '0' && (s[1] == 'x' || s[1] == 'X')
  }

  /** The two ways the controllers call `parseInt`: with radix 10, or with
      the radix left out, when a `0x`/`0X` prefix selects base 16. */
  datatype Radix = Ten | Unspecified

  function DigitTest(base: nat): char -> bool {
    if base == 16 then IsHexDigit else IsDecimalDigit
  }

  /** The longest run of base-`base` digits at the start of `v`, read as a
      number; NaN when there is none. */
  function DigitRun(v: string, base: nat): (r: Num)
    requires base == 10 || base == 16
    ensures r.Int? ==> r.value >= 0
  {
    var z := v[..LeadingRun(v, DigitTest(base))];
    if |z| == 0 then NaN else Int(DigitsValue(z, base))
  }

  /** `parseInt` after white space and sign are gone. */
  function ParseUnsigned(u: string, radix: Radix): (r: Num)
    ensures r.Int? ==> r.value >= 0
  {
    if radix == Unspecified && HasHexPrefix(u) then DigitRun(u[2..], 16) else DigitRun(u, 10)
  }

  function Negate(n: Num): Num {
    match n
    case NaN => NaN
    case Int(v) => Int(-v)
  }

  /** `parseInt(s, radix)`: skip leading white space, read an optional sign,
      then the longest run of digits; no digit at all gives NaN. Whatever
      follows the digits is ignored. */
  function ParseInt(s: string, radix: Radix): Num {
    var t := s[LeadingRun(s, IsSpace)..];
    if |t| > 0 && t[0] == '-' then Negate(ParseUnsigned(t[1..], radix))
    else if |t| > 0 && t[0] == '+' then ParseUnsigned(t[1..], radix)
    else ParseUnsigned(t, radix)
  }

  /** `parseInt(req.query.x, radix)`: an absent parameter is the string "undefined". */
  function ParseIntParam(raw: Option<string>, radix: Radix): Num {
    match raw
    case None => ParseInt("undefined", radix)
    case Some(s) => ParseInt(s, radix)
  }

  /** `Number(s)` for a string: blank is 0, otherwise the whole trimmed text
      must be an optionally signed decimal integer or a `0x` hexadecimal one. */
  function StringToNumber(s: string): Num {
    var t := Trim(s);
    if |t| == 0 then Int(0)
    else if HasHexPrefix(t) then
      var h := t[2..];
      if |h| > 0 && LeadingRun(h, IsHexDigit) == |h| then Int(DigitsValue(h, 16)) else NaN
    else
      var u := if t[0] == '-' || t[0] == '+' then t[1..] else t;
      if |u| > 0 && LeadingRun(u, IsDecimalDigit) == |u| then
        var m: int := DigitsValue(u, 10);
        Int(if t[0] == '-' then -m else m)
      else NaN
  }

  /** `Number(v)` for a JSON value. */
  function ToNumber(v: JsValue): Num {
    match v
    case Undefined => NaN
    case Null => Int(0)
    case Bool(b) => Int(if b then 1 else 0)
    case Number(n) => n
    case Str(s) => StringToNumber(s)
  }

  lemma LeadingRunOfDigits(z: string, rest: string, p: char -> bool)
    requires forall k :: 0 <= k < |z| ==> p(z[k])
    requires |rest| == 0 || !p(rest[0])
    ensures LeadingRun(z + rest, p) == |z|
    ensures (z + rest)[..|z|] == z
  {
    if |z| > 0 {
      assert (z + rest)[1..] == z[1..] + rest;
      LeadingRunOfDigits(z[1..], rest, p);
    }
  }

  /** The digit run of a decimal text followed by a non-digit is that text. */
  lemma DigitRunOfDecimal(n: nat, rest: string)
    requires |rest| == 0 || !IsDecimalDigit(rest[0])
    ensures DigitRun(DecimalString(n) + rest, 10) == Int(n)
  {
    LeadingRunOfDigits(DecimalString(n), rest, IsDecimalDigit);
  }

  lemma ParseUnsignedOfDecimal(n: nat, rest: string, radix: Radix)
    requires |rest| == 0 || !IsDecimalDigit(rest[0])
    requires radix == Unspecified && n == 0 ==> |rest| == 0 || (rest[0] != 'x' && rest[0] != 'X')
    ensures ParseUnsigned(DecimalString(n) + rest, radix) == Int(n)
  {
    var d := DecimalString(n);
    assert !(radix == Unspecified && HasHexPrefix(d + rest)) by {
      if |d| >= 2 { assert IsDecimalDigit((d + rest)[1]); }
    }
    DigitRunOfDecimal(n, rest);
  }

  /** `parseInt` reads back the decimal text of n, whatever white space
      precedes it and whatever non-digit text follows it. */
  lemma ParseIntReadsDecimal(ws: string, n: nat, rest: string, radix: Radix)
    requires forall k :: 0 <= k < |ws| ==> IsSpace(ws[k])
    requires |rest| == 0 || !IsDecimalDigit(rest[0])
    requires radix == Unspecified && n == 0 ==> |rest| == 0 || (rest[0] != 'x' && rest[0] != 'X')
    ensures ParseInt(ws + DecimalString(n) + rest, radix) == Int(n)
  {
    var d := DecimalString(n);
    var s := ws + d + rest;
    assert !IsSpace(d[0]);
    LeadingRunOfDigits(ws, d + rest, IsSpace);
    assert s == ws + (d + rest);
    assert s[LeadingRun(s, IsSpace)..] == d + rest;
    ParseUnsignedOfDecimal(n, rest, radix);
  }

  /** `parseInt` also reads back a negated decimal text. */
  lemma ParseIntReadsNegative(n: nat, rest: string, radix: Radix)
    requires |rest| == 0 || !IsDecimalDigit(rest[0])
    requires radix == Unspecified && n == 0 ==> |rest| == 0 || (rest[0] != 'x' && rest[0] != 'X')
    ensures ParseInt("-" + DecimalString(n) + rest, radix) == Int(-(n as int))
  {
    var d := DecimalString(n);
    var s := "-" + d + rest;
    assert s[0] == '-' && !IsSpace('-');
    assert LeadingRun(s, IsSpace) == 0;
    assert s[0..] == s;
    assert s[1..] == d + rest;
    ParseUnsignedOfDecimal(n, rest, radix);
    assert ParseInt(s, radix) == Negate(ParseUnsigned(d + rest, radix));
  }

  /** A text whose first character is neither blank, a sign nor a digit parses to NaN. */
  lemma ParseIntNoDigits(s: string, radix: Radix)
    requires |s| > 0 && !IsSpace(s[0]) && !IsHexDigit(s[0]) && s[0] != '-' && s[0] != '+'
    ensures ParseInt(s, radix) == NaN
  {
    assert LeadingRun(s, IsSpace) == 0;
    assert s[0..] == s;
    assert LeadingRun(s, IsDecimalDigit) == 0;
  }

  /** An absent query parameter parses to NaN. */
  lemma ParseIntOfAbsent(radix: Radix)
    ensures ParseIntParam(None, radix) == NaN
  {
    ParseIntNoDigits("undefined", radix);
  }

  /** `Number` reads back the decimal text of n. */
  lemma StringToNumberReadsDecimal(n: nat)
    ensures StringToNumber(DecimalString(n)) == Int(n)
  {
    var d := DecimalString(n);
    assert !IsSpace(d[0]) && !IsSpace(d[|d| - 1]);
    TrimOfTrimmed(d);
    assert Trim(d) == d;
    assert !HasHexPrefix(d) by {
      if |d| >= 2 { assert IsDecimalDigit(d[1]); }
    }
    assert d[0] != '-' && d[0] != '+';
    LeadingRunOfDigits(d, "", IsDecimalDigit);
    assert d + "" == d;
    assert LeadingRun(d, IsDecimalDigit) == |d|;
  }

  /** Unlike `parseInt`, `Number` rejects trailing text: "12xyz" is NaN. */
  lemma StringToNumberRejectsTrailingText(n: nat, rest: string)
    requires |rest| > 0 && !IsHexDigit(rest[0]) && !IsSpace(rest[0]) && !IsSpace(rest[|rest| - 1])
    requires n == 0 ==> rest[0] != 'x' && rest[0] != 'X'
    ensures StringToNumber(DecimalString(n) + rest) == NaN
  {
    var d := DecimalString(n);
    var s := d + rest;
    assert !IsSpace(s[0]) && !IsSpace(s[|s| - 1]);
    TrimOfTrimmed(s);
    assert Trim(s) == s;
    assert s[0] == d[0] && s[0] != '-' && s[0] != '+';
    LeadingRunOfDigits(d, rest, IsDecimalDigit);
    assert LeadingRun(s, IsDecimalDigit) == |d| < |s|;
    assert !HasHexPrefix(s) by {
      if |d| >= 2 { assert IsDecimalDigit(s[1]); } else { assert s[1] == rest[0]; }
    }
  }

  /** An empty path segment or blank text converts to the falsy 0. */
  lemma StringToNumberOfBlank(s: string)
    requires forall k :: 0 <= k < |s| ==> IsSpace(s[k])
    ensures StringToNumber(s) == Int(0)
  {
  }
}

=== FILE: js_string.dfy ===
/** The parts of JavaScript string semantics the controllers rely on:
    truthiness of an optional string, `a || b` on strings, white space as
    ECMAScript defines it, and `String.prototype.trim`. */
module JsString {
  import opened Wrappers

  /** `!!s` for a request field that may be absent: only a non-empty string is truthy. */
  predicate Truthy(s: Option<string>) {
    s.Some? && |s.value| > 0
  }

  /** `s || fallback` */
  function OrElse(s: Option<string>, fallback: string): (r: string)
    ensures Truthy(s) ==> r == s.value
    ensures !Truthy(s) ==> r == fallback
  {
    if Truthy(s) then s.value else fallback
  }

  /** The ECMAScript WhiteSpace and LineTerminator code points: what `trim`
      removes and what `parseInt` and `Number` skip. */
  predicate IsSpace(c: char) {
    || c == '\t' || c == '\n' || c == '\U{000B}' || c == '\U{000C}' || c == '\r'
    || c == ' ' || c == '\U{00A0}' || c == '\U{1680}'
    || ('\U{2000}' <= c <= '\U{200A}')
    || c == '\U{2028}' || c == '\U{2029}' || c == '\U{202F}' || c == '\U{205F}'
    || c == '\U{3000}' || c == '\U{FEFF}'
  }

  /** Length of the longest prefix of `s` whose characters all satisfy `p`. */
  function LeadingRun(s: string, p: char -> bool): (n: nat)
    ensures n <= |s|
    ensures forall k :: 0 <= k < n ==> p(s[k])
    ensures n == |s| || !p(s[n])
  {
    if |s| == 0 || !p(s[0]) then 0 else 1 + LeadingRun(s[1..], p)
  }

  /** Length of the longest suffix of `s` whose characters all satisfy `p`. */
  function TrailingRun(s: string, p: char -> bool): (n: nat)
    ensures n <= |s|
    ensures forall k :: |s| - n <= k < |s| ==> p(s[k])
    ensures n == |s| || !p(s[|s| - 1 - n])
  {
    if |s| == 0 || !p(s[|s| - 1]) then 0 else 1 + TrailingRun(s[..|s| - 1], p)
  }

  /** `s.trim()`: the infix left after dropping white space at both ends. */
  function Trim(s: string): (r: string)
    ensures LeadingRun(s, IsSpace) + |r| <= |s|
    ensures r == s[LeadingRun(s, IsSpace)..LeadingRun(s, IsSpace) + |r|]
    ensures |r| == 0 <==> forall k :: 0 <= k < |s| ==> IsSpace(s[k])
    ensures |r| > 0 ==> !IsSpace(r[0]) && !IsSpace(r[|r| - 1])
    ensures forall k :: LeadingRun(s, IsSpace) + |r| <= k < |s| ==> IsSpace(s[k])
  {
    var a := LeadingRun(s, IsSpace);
    var t := s[a..];
    var b := TrailingRun(t, IsSpace);
    TrimParts(s, a, b);
    t[..|t| - b]
  }

  /** The pieces `Trim` cuts `s` into: what is left after dropping the first
      a characters and then the last b of the rest. */
  lemma TrimParts(s: string, a: nat, b: nat)
    requires a <= |s| && b <= |s| - a
    requires forall k :: |s| - b <= k < |s| ==> IsSpace(s[k])
    ensures var r := s[a..][..|s| - a - b];
      && r == s[a..a + |r|] && |r| == |s| - a - b
      && (|s| - a > 0 ==> s[a..][0] == s[a])
      && forall k :: a + |r| <= k < |s| ==> IsSpace(s[k])
  {
  }

  /** A string with no white space at either end is its own trim. */
  lemma TrimOfTrimmed(s: string)
    requires |s| == 0 || (!IsSpace(s[0]) && !IsSpace(s[|s| - 1]))
    ensures Trim(s) == s
  {
    assert LeadingRun(s, IsSpace) == 0;
    assert s[0..] == s;
    assert TrailingRun(s, IsSpace) == 0;
  }

  /** Trimming twice is trimming once. */
  lemma TrimIdempotent(s: string)
    ensures Trim(Trim(s)) == Trim(s)
  {
    TrimOfTrimmed(Trim(s));
  }
}

=== FILE: profile.dfy ===
/** `getUserProfile`: a user's profile row with the number of their live
    posts, and one page of those posts, newest first, with the page
    arithmetic the handler reports. Follower counts come from a table this
    model does not include. */
module Profile {
  import opened Wrappers
  import opened JsString
  import opened JsNumber
  import opened Query
  import opened Store
  import opened Arith

  const DefaultPage: nat := 1
  const DefaultLimit: nat := 9
  const MaxLimit: nat := 100

  /** `parseInt(req.query.page, 10)`, with anything that is not an integer of
      at least one replaced by the first page. */
  function PageParam(raw: Option<string>): (page: nat)
    ensures page >= 1
    ensures var n := ParseIntParam(raw, Ten); page == if n.Int? && n.value >= 1 then n.value else DefaultPage
  {
    var n := ParseIntParam(raw, Ten);
    if n.Int? && n.value >= 1 then n.value else DefaultPage
  }

  /** `parseInt(req.query.limit, 10)`: anything below one gives nine rows,
      anything above the maximum gives the maximum. */
  function LimitParam(raw: Option<string>): (limit: nat)
    ensures 1 <= limit <= MaxLimit
    ensures var n := ParseIntParam(raw, Ten);
      && (n.Int? && 1 <= n.value <= MaxLimit ==> limit == n.value)
      && (n.Int? && n.value > MaxLimit ==> limit == MaxLimit)
      && (n.NaN? || n.value < 1 ==> limit == DefaultLimit)
  {
    var n := ParseIntParam(raw, Ten);
    if n.Int? && n.value >= 1 then (if n.value > MaxLimit then MaxLimit else n.value) else DefaultLimit
  }

  /** Where the user id comes from: the token's `id` when it is non-zero,
      else the path parameter when it is non-empty, read with `Number`. */
  function RequestedUserId(claims: Claims, param: Option<string>): (r: Option<Num>)
    ensures claims.id.Some? && claims.id.value != 0 ==> r == Some(Int(claims.id.value))
    ensures (claims.id.None? || claims.id == Some(0)) && Truthy(param) ==> r == Some(StringToNumber(param.value))
    ensures r.None? <==> (claims.id.None? || claims.id == Some(0)) && !Truthy(param)
  {
    if claims.id.Some? && claims.id.value != 0 then Some(Int(claims.id.value))
    else if Truthy(param) then Some(StringToNumber(param.value))
    else None
  }

  datatype Pagination = Pagination(
    page: nat,
    limit: nat,
    offset: nat,
    totalCount: nat,
    totalPages: nat,
    hasNext: bool,
    hasPrev: bool)

  /** `Math.ceil(total / limit)` for a positive limit. */
  function CeilDiv(total: nat, limit: nat): (q: nat)
    requires limit >= 1
    ensures q * limit >= total
    ensures q == 0 || (q - 1) * limit < total
  {
    (total + limit - 1) / limit
  }

  /** The page arithmetic: at least one page, enough pages to hold every
      row, a requested page past the end moved back to the last page. */
  function Paginate(requested: nat, limit: nat, total: nat): (p: Pagination)
    requires requested >= 1 && limit >= 1
    ensures p.limit == limit && p.totalCount == total
    ensures p.totalPages >= 1 && p.totalPages * limit >= total
    ensures p.totalPages == 1 || (p.totalPages - 1) * limit < total
    ensures 1 <= p.page <= p.totalPages
    ensures p.page == if requested <= p.totalPages then requested else p.totalPages
    ensures p.offset == (p.page - 1) * limit
    ensures total > 0 ==> p.offset < total
    ensures total == 0 ==> p.offset == 0
    ensures p.hasNext <==> p.page < p.totalPages
    ensures p.hasPrev <==> p.page > 1
  {
    var q := CeilDiv(total, limit);
    var pages := if q > 1 then q else 1;
    var page := if requested > pages then pages else requested;
    MulMonotone(page - 1, pages - 1, limit);
    assert pages * limit >= total by {
      if q <= 1 {
        MulMonotone(q, 1, limit);
      }
    }
    Pagination(page, limit, (page - 1) * limit, total, pages, page < pages, page > 1)
  }

  /** A page other than the last is full and the last holds the remainder. */
  lemma PageSizes<T>(rows: seq<T>, requested: nat, limit: nat)
    requires requested >= 1 && limit >= 1
    ensures var p := Paginate(requested, limit, |rows|);
      && (p.hasNext ==> |Window(rows, p.offset, limit)| == limit)
      && (!p.hasNext ==> |Window(rows, p.offset, limit)| == |rows| - p.offset)
  {
    var p := Paginate(requested, limit, |rows|);
    if p.hasNext {
      MulMonotone(p.page, p.totalPages - 1, limit);
      assert p.offset + limit == p.page * limit;
    }
  }

  /** Together the pages hold every row once: row j is on page
      j / limit + 1, at position j % limit. */
  lemma PagesCoverRows<T>(rows: seq<T>, limit: nat, j: nat)
    requires limit >= 1 && j < |rows|
    ensures var p := Paginate(j / limit + 1, limit, |rows|);
      p.page == j / limit + 1 && p.offset <= j < p.offset + limit
      && Window(rows, p.offset, limit)[j - p.offset] == rows[j]
  {
    var q := j / limit;
    DivBounds(j, limit);
    var p := Paginate(q + 1, limit, |rows|);
    assert q + 1 <= p.totalPages by {
      if q + 1 > p.totalPages {
        MulMonotone(p.totalPages, q, limit);
      }
    }
    assert p.page == q + 1;
    assert p.offset == q * limit;
    assert p.offset <= j < p.offset + limit;
    var w := Window(rows, p.offset, limit);
    assert w[j - p.offset] == rows[p.offset + (j - p.offset)];
  }

  lemma DivBounds(j: nat, limit: nat)
    requires limit >= 1
    ensures (j / limit) * limit <= j < (j / limit) * limit + limit
  {
  }

  /** The profile columns the handler returns. */
  datatype ProfileRow = ProfileRow(
    id: nat,
    username: string,
    name: Option<string>,
    profileImage: Option<string>,
    preferredMode: string,
    status: AccountStatus,
    postCount: nat)

  /** The post columns the handler returns. */
  datatype ProfilePost = ProfilePost(
    id: nat,
    postType: string,
    imageUrl: Option<string>,
    likeCount: int,
    commentCount: int,
    createdAt: int)

  /** `author_id = ? AND deleted_at IS NULL` */
  function ByAuthor(uid: int): (nat, Post) -> bool {
    (k: nat, p: Post) => p.authorId == uid && p.deletedAt.None?
  }

  function PostRowOf(k: nat, p: Post): ProfilePost {
    ProfilePost(k + 1, p.postType, p.imageUrl, p.likeCount, p.commentCount, p.createdAt)
  }

  /** `ORDER BY created_at DESC` as an ascending key. */
  const NewestFirst: ProfilePost -> int := (row: ProfilePost) => -row.createdAt

  datatype ProfileOutcome =
    | NoUserId
    | InvalidUserId
    | UserNotFound
    | ProfileFound(profile: ProfileRow, posts: seq<ProfilePost>, pagination: Pagination)

  function ProfileStatus(o: ProfileOutcome): int {
    match o
    case NoUserId => 400
    case InvalidUserId => 400
    case UserNotFound => 404
    case ProfileFound(_, _, _) => 200
  }

  /** The author's live posts, newest first: the result the page is cut from. */
  function AuthorPosts(db: Db, uid: int): (r: seq<ProfilePost>)
    ensures SortedBy(r, NewestFirst)
    ensures |r| == Count(db.posts, ByAuthor(uid))
    ensures forall row :: row in r <==>
      exists k :: 0 <= k < |db.posts| && db.posts[k].authorId == uid && db.posts[k].deletedAt.None?
        && row == PostRowOf(k, db.posts[k])
  {
    var rows := Select(db.posts, ByAuthor(uid), PostRowOf);
    SelectMembers(db.posts, ByAuthor(uid), PostRowOf);
    SelectCount(db.posts, ByAuthor(uid), PostRowOf);
    var r := SortBy(rows, NewestFirst);
    MultisetSameMembers(r, rows);
    r
  }

  /** The answer for an existing account: its profile row with the number
      of its live posts, and the page of those posts the pagination picks. */
  function ProfileOf(db: Db, uid: nat, page: nat, limit: nat): (r: ProfileOutcome)
    requires HasRow(db.users, uid) && page >= 1 && limit >= 1
    ensures r.ProfileFound?
    ensures var all := AuthorPosts(db, uid);
      && r.profile.id == uid
      && r.profile.username == db.users[uid - 1].username
      && r.profile.status == db.users[uid - 1].status
      && r.profile.postCount == |all| == Count(db.posts, ByAuthor(uid))
      && r.pagination == Paginate(page, limit, |all|)
      && r.posts == Window(all, r.pagination.offset, limit)
  {
    var u := db.users[uid - 1];
    var all := AuthorPosts(db, uid);
    var profile := ProfileRow(uid, u.username, u.name, u.profileImage, u.preferredMode, u.status, |all|);
    var pagination := Paginate(page, limit, |all|);
    ProfileFound(profile, Window(all, pagination.offset, limit), pagination)
  }

  /** `getUserProfile`. */
  function GetUserProfile(db: Db, claims: Claims, param: Option<string>,
                          pageRaw: Option<string>, limitRaw: Option<string>): (r: ProfileOutcome)
    ensures r == NoUserId <==> RequestedUserId(claims, param).None?
    ensures r == InvalidUserId <==>
      var n := RequestedUserId(claims, param); n.Some? && (n.value.NaN? || n.value.value <= 0)
    ensures r == UserNotFound <==>
      var n := RequestedUserId(claims, param); n.Some? && n.value.Int? && n.value.value > |db.users|
    ensures r.ProfileFound? ==>
      && RequestedUserId(claims, param) == Some(Int(r.profile.id)) && HasRow(db.users, r.profile.id)
      && r == ProfileOf(db, r.profile.id, PageParam(pageRaw), LimitParam(limitRaw))
  {
    match RequestedUserId(claims, param)
    case None => NoUserId
    case Some(n) =>
      if n.NaN? || n.value <= 0 then InvalidUserId
      else if !HasRow(db.users, n.value) then UserNotFound
      else ProfileOf(db, n.value, PageParam(pageRaw), LimitParam(limitRaw))
  }

  /** Where the id comes from: a non-zero id in the token wins over the path,
      and otherwise the decimal id in the path selects that account, with
      0 refused and an id past the last account not found. */
  lemma ProfileIdSources(db: Db, claims: Claims, param: Option<string>, n: nat,
                         pageRaw: Option<string>, limitRaw: Option<string>)
    ensures claims.id.Some? && claims.id.value != 0 ==>
      GetUserProfile(db, claims, param, pageRaw, limitRaw) == GetUserProfile(db, claims, None, pageRaw, limitRaw)
    ensures claims.id.None? || claims.id == Some(0) ==>
      var r := GetUserProfile(db, claims, Some(DecimalString(n)), pageRaw, limitRaw);
      && (n == 0 ==> r == InvalidUserId)
      && (n > |db.users| ==> r == UserNotFound)
      && (1 <= n <= |db.users| ==> r == ProfileOf(db, n, PageParam(pageRaw), LimitParam(limitRaw)))
  {
    StringToNumberReadsDecimal(n);
  }

  /** Every post shown is a live post of the profile's user, newest first,
      and a page never holds more than the limit. */
  lemma ProfilePostsBelongToUser(db: Db, uid: nat, page: nat, limit: nat)
    requires HasRow(db.users, uid) && page >= 1 && limit >= 1
    ensures var r := ProfileOf(db, uid, page, limit);
      && |r.posts| <= limit
      && SortedBy(r.posts, NewestFirst)
      && forall i :: 0 <= i < |r.posts| ==>
           var k := r.posts[i].id - 1;
           0 <= k < |db.posts| && db.posts[k].authorId == uid && db.posts[k].deletedAt.None?
  {
    var r := ProfileOf(db, uid, page, limit);
    var all := AuthorPosts(db, uid);
    forall i | 0 <= i < |r.posts|
      ensures r.posts[i] in all
    {
      assert r.posts[i] == all[r.pagination.offset + i];
    }
    forall i, j | 0 <= i < j < |r.posts|
      ensures NewestFirst(r.posts[i]) <= NewestFirst(r.posts[j])
    {
      assert r.posts[i] == all[r.pagination.offset + i];
      assert r.posts[j] == all[r.pagination.offset + j];
    }
  }
}

=== FILE: query.dfy ===
/** The relational operations the controllers' SQL statements use, over
    sequences: selection with projection (`SELECT f(row) ... WHERE keep(row)`),
    counting (`COUNT(1) ... WHERE keep(row)`), ordering (`ORDER BY key ASC`)
    and paging (`LIMIT limit OFFSET offset`). A table is a sequence whose
    index k holds the row with id k + 1. */
module Query {

  /** `SELECT f(k, row) FROM table WHERE keep(k, row)` in table order. */
  function Select<T, U>(table: seq<T>, keep: (nat, T) -> bool, f: (nat, T) -> U): (r: seq<U>)
    ensures |r| <= |table|
  {
    if |table| == 0 then []
    else
      var k := |table| - 1;
      Select(table[..k], keep, f) + (if keep(k, table[k]) then [f(k, table[k])] else [])
  }

  /** `SELECT COUNT(1) FROM table WHERE keep(k, row)` */
  function Count<T>(table: seq<T>, keep: (nat, T) -> bool): nat {
    if |table| == 0 then 0
    else
      var k := |table| - 1;
      Count(table[..k], keep) + (if keep(k, table[k]) then 1 else 0)
  }

  /** A selected row is the projection of a kept row, and every kept row is selected. */
  lemma {:induction false} SelectMembers<T, U>(table: seq<T>, keep: (nat, T) -> bool, f: (nat, T) -> U)
    ensures forall k :: 0 <= k < |table| && keep(k, table[k]) ==> f(k, table[k]) in Select(table, keep, f)
    ensures forall y :: y in Select(table, keep, f) ==>
              exists k :: 0 <= k < |table| && keep(k, table[k]) && y == f(k, table[k])
  {
    if |table| > 0 {
      var n := |table| - 1;
      var prefix := table[..n];
      SelectMembers(prefix, keep, f);
      assert forall k :: 0 <= k < n ==> prefix[k] == table[k];
    }
  }

  /** The selection has as many rows as the count says. */
  lemma {:induction false} SelectCount<T, U>(table: seq<T>, keep: (nat, T) -> bool, f: (nat, T) -> U)
    ensures |Select(table, keep, f)| == Count(table, keep)
  {
    if |table| > 0 {
      SelectCount(table[..|table| - 1], keep, f);
    }
  }

  /** Appending a row adds one to the count exactly when the row is kept. */
  lemma CountAppend<T>(table: seq<T>, row: T, keep: (nat, T) -> bool)
    ensures Count(table + [row], keep) == Count(table, keep) + (if keep(|table|, row) then 1 else 0)
  {
    assert (table + [row])[..|table|] == table;
  }

  /** Replacing row i moves the count by the change in that one row's verdict. */
  lemma {:induction false} CountUpdate<T>(table: seq<T>, i: nat, row: T, keep: (nat, T) -> bool)
    requires i < |table|
    ensures Count(table[i := row], keep)
         == Count(table, keep) - (if keep(i, table[i]) then 1 else 0) + (if keep(i, row) then 1 else 0)
  {
    var n := |table| - 1;
    var t := table[i := row];
    if i < n {
      assert t[..n] == table[..n][i := row];
      CountUpdate(table[..n], i, row, keep);
    } else {
      assert t[..n] == table[..n];
    }
  }

  predicate SortedBy<T>(s: seq<T>, key: T -> int) {
    forall i, j :: 0 <= i < j < |s| ==> key(s[i]) <= key(s[j])
  }

  /** Sequences with the same multiset have the same members. */
  lemma MultisetSameMembers<T>(a: seq<T>, b: seq<T>)
    requires multiset(a) == multiset(b)
    ensures forall x :: x in a <==> x in b
  {
    forall x
      ensures x in a <==> x in b
    {
      assert x in a <==> x in multiset(a);
      assert x in b <==> x in multiset(b);
    }
  }

  /** Insert x after every element whose key is not larger than its own. */
  function Insert<T(==)>(x: T, s: seq<T>, key: T -> int): (r: seq<T>)
    requires SortedBy(s, key)
    ensures SortedBy(r, key)
    ensures multiset(r) == multiset(s) + multiset{x}
    ensures |r| == |s| + 1
    ensures key(r[0]) == if |s| == 0 || key(x) < key(s[0]) then key(x) else key(s[0])
  {
    if |s| == 0 || key(x) < key(s[0]) then [x] + s
    else
      var rest := Insert(x, s[1..], key);
      assert s == [s[0]] + s[1..];
      [s[0]] + rest
  }

  /** `ORDER BY key ASC`: a permutation of s in ascending key order. Rows with
      equal keys keep their table order. */
  function SortBy<T(==)>(s: seq<T>, key: T -> int): (r: seq<T>)
    ensures SortedBy(r, key)
    ensures multiset(r) == multiset(s)
    ensures |r| == |s|
  {
    if |s| == 0 then []
    else
      var n := |s| - 1;
      assert s == s[..n] + [s[n]];
      Insert(s[n], SortBy(s[..n], key), key)
  }

  /** `LIMIT limit OFFSET offset` on an ordered result. */
  function Window<T>(s: seq<T>, offset: nat, limit: nat): (r: seq<T>)
    ensures |r| == if offset >= |s| then 0 else if limit < |s| - offset then limit else |s| - offset
    ensures forall i :: 0 <= i < |r| ==> r[i] == s[offset + i]
  {
    if offset >= |s| then []
    else if limit < |s| - offset then s[offset..offset + limit]
    else s[offset..]
  }

  /** JavaScript `s.slice(0, end)`: a negative end counts back from the length. */
  function SliceTo<T>(s: seq<T>, end: int): (r: seq<T>)
    ensures end >= 0 ==> |r| == if end < |s| then end else |s|
    ensures end < 0 ==> |r| == if |s| + end > 0 then |s| + end else 0
    ensures r == s[..|r|]
  {
    var e := if end < 0 then |s| + end else end;
    if e <= 0 then [] else if e < |s| then s[..e] else s
  }
}

=== FILE: senior.dfy ===
/** The senior account handlers: sign-in-or-sign-up by SMS code, and login
    and sign-up through a Kakao account. The Kakao user-info call is an
    input: `None` when the call failed, which the handlers turn into a 500.
    Token issuance is not modelled. */
module Senior {
  import opened Wrappers
  import opened JsString
  import opened Store
  import opened VerificationCodes

  const SeniorMode: string := "senior"
  const SeniorNamePrefix: string := "시니어"
  const SeniorUsernamePrefix: string := "senior_"
  const LoginMessage: string := "로그인 성공"
  const SignupAndLoginMessage: string := "회원가입 및 로그인 성공"

  /** `s.slice(-4)`: the last four characters, or all of a shorter string. */
  function LastFour(s: string): (r: string)
    ensures |r| == if |s| < 4 then |s| else 4
    ensures r == s[|s| - |r|..]
  {
    if |s| < 4 then s else s[|s| - 4..]
  }

  /** The name a phone sign-up gets when none is given: `시니어` and the
      last four digits of the number. */
  function DefaultSeniorName(phone: string): string {
    SeniorNamePrefix + LastFour(phone)
  }

  /** The account a phone sign-up creates. */
  function NewPhoneUser(phone: string, name: Option<string>, now: int): User {
    User(
      signupMode := "phone",
      username := SeniorUsernamePrefix + phone,
      password := None,
      name := Some(OrElse(name, DefaultSeniorName(phone))),
      phone := phone,
      profileImage := None,
      preferredMode := SeniorMode,
      kakaoId := None,
      status := Active,
      lastLoginAt := now)
  }

  /** A login through a senior entry point switches the account to senior
      mode and records the login instant. */
  function SeniorLogin(u: User, now: int): User {
    u.(preferredMode := SeniorMode, lastLoginAt := now)
  }

  // ---------------------------------------------------------------------------
  // seniorPhoneAuth

  /** The message of a successful phone sign-in, as written: it tests the id
      of the account it has just read or created. */
  function PhoneAuthMessageAsWritten(id: nat): string {
    if id != 0 then LoginMessage else SignupAndLoginMessage
  }

  /** The message a successful phone sign-in evidently means to give. */
  function PhoneAuthMessage(created: bool): (m: string)
    ensures m == LoginMessage <==> !created
    ensures m == SignupAndLoginMessage <==> created
  {
    if created then SignupAndLoginMessage else LoginMessage
  }

  datatype PhoneAuthOutcome =
    | PhoneAuthInputRequired
    | InvalidCode
    | SignedIn(id: nat, user: User, created: bool, message: string)

  function PhoneAuthStatus(o: PhoneAuthOutcome): int {
    if o.SignedIn? then 200 else 400
  }

  datatype PhoneAuthStep = PhoneAuthStep(outcome: PhoneAuthOutcome, codes: CodeStore, users: seq<User>)

  /** `seniorPhoneAuth`: consume a valid code, then log in the active account
      with that number, or create one. Unlike `verifyCode`, a refused code
      leaves the store as it was, even when the code has expired. */
  function SeniorPhoneAuth(codes: CodeStore, users: seq<User>, phone: Option<string>, code: Option<string>,
                           name: Option<string>, now: int): (r: PhoneAuthStep)
    ensures !Truthy(phone) || !Truthy(code) ==> r == PhoneAuthStep(PhoneAuthInputRequired, codes, users)
    ensures r.outcome.SignedIn? <==> Accepts(codes, phone, code, now)
    ensures Truthy(phone) && Truthy(code) && !Accepts(codes, phone, code, now) ==> r.outcome == InvalidCode
    ensures !r.outcome.SignedIn? ==> r.codes == codes && r.users == users
    ensures r.outcome.SignedIn? ==>
      var p := NormalizePhone(phone.value);
      && r.codes == codes - {p}
      && 1 <= r.outcome.id <= |r.users| && r.users[r.outcome.id - 1] == r.outcome.user
      && r.outcome.user.phone == p && r.outcome.user.status == Active
      && r.outcome.user.preferredMode == SeniorMode
      && r.outcome.message == PhoneAuthMessageAsWritten(r.outcome.id)
  {
    if !Truthy(phone) || !Truthy(code) then PhoneAuthStep(PhoneAuthInputRequired, codes, users)
    else
      var p := NormalizePhone(phone.value);
      if p !in codes || now > codes[p].expiresAt || codes[p].code != code.value then
        PhoneAuthStep(InvalidCode, codes, users)
      else
        var codes' := codes - {p};
        match FirstWhere(users, ActiveWithPhone(p))
        case Some(i) =>
          var u := SeniorLogin(users[i], now);
          PhoneAuthStep(SignedIn(i + 1, u, false, PhoneAuthMessageAsWritten(i + 1)), codes', users[i := u])
        case None =>
          var u := NewPhoneUser(p, name, now);
          PhoneAuthStep(SignedIn(|users| + 1, u, true, PhoneAuthMessageAsWritten(|users| + 1)), codes', users + [u])
  }

  /** As written, the handler answers every successful sign-in with the
      login message, also when it has just created the account: the id it
      tests is always positive. */
  lemma PhoneAuthNeverReportsSignup(codes: CodeStore, users: seq<User>, phone: Option<string>, code: Option<string>,
                                    name: Option<string>, now: int)
    requires Accepts(codes, phone, code, now)
    ensures var r := SeniorPhoneAuth(codes, users, phone, code, name, now);
      && r.outcome.SignedIn? && r.outcome.message == LoginMessage
      && (r.outcome.created <==> forall k :: 0 <= k < |users| ==> !ActiveWithPhone(NormalizePhone(phone.value))(users[k]))
  {
  }

  /** `seniorPhoneAuth` with the message it evidently means to give: the
      sign-up message exactly when the account was created. Everything else
      is the handler's. */
  function SeniorPhoneAuthIntended(codes: CodeStore, users: seq<User>, phone: Option<string>, code: Option<string>,
                                   name: Option<string>, now: int): (r: PhoneAuthStep)
    ensures var w := SeniorPhoneAuth(codes, users, phone, code, name, now);
      && r.codes == w.codes && r.users == w.users
      && (r.outcome.SignedIn? <==> w.outcome.SignedIn?)
      && (!r.outcome.SignedIn? ==> r.outcome == w.outcome)
    ensures r.outcome.SignedIn? ==>
      && (r.outcome.message == SignupAndLoginMessage <==>
            forall k :: 0 <= k < |users| ==> !ActiveWithPhone(NormalizePhone(phone.value))(users[k]))
      && (r.outcome.message == LoginMessage <==>
            exists k :: 0 <= k < |users| && ActiveWithPhone(NormalizePhone(phone.value))(users[k]))
  {
    var w := SeniorPhoneAuth(codes, users, phone, code, name, now);
    if w.outcome.SignedIn? then
      w.(outcome := w.outcome.(message := PhoneAuthMessage(w.outcome.created)))
    else w
  }

  /** With a valid code and no active account for the number, exactly one
      account is added: username `senior_` and the number, the given name or
      `시니어` and the last four digits, senior mode, active, no password. */
  lemma PhoneAuthCreatesAccount(codes: CodeStore, users: seq<User>, phone: Option<string>, code: Option<string>,
                                name: Option<string>, now: int)
    requires Accepts(codes, phone, code, now)
    requires forall k :: 0 <= k < |users| ==> !ActiveWithPhone(NormalizePhone(phone.value))(users[k])
    ensures var r := SeniorPhoneAuth(codes, users, phone, code, name, now);
      var p := NormalizePhone(phone.value);
      && r.users[..|users|] == users && |r.users| == |users| + 1
      && r.outcome.created && r.outcome.id == |users| + 1
      && r.outcome.user.username == "senior_" + p
      && r.outcome.user.name == Some(if Truthy(name) then name.value else "시니어" + LastFour(p))
      && r.outcome.user.password == None
      && r.outcome.user.signupMode == "phone"
  {
    var r := SeniorPhoneAuth(codes, users, phone, code, name, now);
    assert r.users == users + [r.outcome.user];
  }

  /** With a valid code and an active account for the number, no account is
      added: the first such account is switched to senior mode and nothing
      else of it changes but its login instant. */
  lemma PhoneAuthLogsInExisting(codes: CodeStore, users: seq<User>, phone: Option<string>, code: Option<string>,
                                name: Option<string>, now: int)
    requires Accepts(codes, phone, code, now)
    requires exists k :: 0 <= k < |users| && ActiveWithPhone(NormalizePhone(phone.value))(users[k])
    ensures var r := SeniorPhoneAuth(codes, users, phone, code, name, now);
      var p := NormalizePhone(phone.value);
      var i := r.outcome.id - 1;
      && |r.users| == |users| && !r.outcome.created
      && 0 <= i < |users| && ActiveWithPhone(p)(users[i])
      && (forall k :: 0 <= k < i ==> !ActiveWithPhone(p)(users[k]))
      && r.users[i] == users[i].(preferredMode := "senior", lastLoginAt := now)
      && forall k :: 0 <= k < |users| && k != i ==> r.users[k] == users[k]
  {
  }

  /** The code is consumed by a successful phone sign-in: repeating the
      request with the same code is refused. */
  lemma PhoneAuthCodeIsSingleUse(codes: CodeStore, users: seq<User>, phone: Option<string>, code: Option<string>,
                                 name: Option<string>, now: int, later: int)
    requires Accepts(codes, phone, code, now)
    ensures var r := SeniorPhoneAuth(codes, users, phone, code, name, now);
      SeniorPhoneAuth(r.codes, r.users, phone, code, name, later).outcome == InvalidCode
  {
  }

  /** Phone sign-in keeps phone numbers and usernames unique when the number
      belongs to an active account or to no account at all and the
      generated username is free. */
  lemma PhoneAuthKeepsAccountsUnique(codes: CodeStore, users: seq<User>, phone: Option<string>, code: Option<string>,
                                     name: Option<string>, now: int)
    requires UniqueAccounts(users) && Accepts(codes, phone, code, now)
    requires var p := NormalizePhone(phone.value);
      || FirstWhere(users, ActiveWithPhone(p)).Some?
      || (!PhoneTaken(users, p) && !UsernameTaken(users, SeniorUsernamePrefix + p))
    ensures UniqueAccounts(SeniorPhoneAuth(codes, users, phone, code, name, now).users)
  {
    var p := NormalizePhone(phone.value);
    match FirstWhere(users, ActiveWithPhone(p))
    case Some(i) =>
      UpdateKeepsUnique(users, i, SeniorLogin(users[i], now));
    case None =>
      AppendKeepsUnique(users, NewPhoneUser(p, name, now));
  }

  /** The lookup sees only active accounts, so an inactive account holding
      the number gets a second account with the same number beside it. */
  lemma PhoneAuthCanDuplicatePhone()
    ensures var inactive := User("normal", "kim", Some("h"), None, "01012345678", None, "normal", None, Inactive, 0);
      var codes := map["01012345678" := Entry("123456", 1000)];
      var r := SeniorPhoneAuth(codes, [inactive], Some("01012345678"), Some("123456"), None, 0);
      r.outcome.SignedIn? && |r.users| == 2 && r.users[0].phone == r.users[1].phone
      && !UniqueAccounts(r.users)
  {
    var phone := "01012345678";
    var inactive := User("normal", "kim", Some("h"), None, phone, None, "normal", None, Inactive, 0);
    var codes := map[phone := Entry("123456", 1000)];
    NormalizeWithoutHyphens(phone);
    assert Accepts(codes, Some(phone), Some("123456"), 0);
    assert FirstWhere([inactive], ActiveWithPhone(phone)) == None by {
      assert !ActiveWithPhone(phone)(inactive);
    }
    var r := SeniorPhoneAuth(codes, [inactive], Some(phone), Some("123456"), None, 0);
    assert r.users == [inactive, NewPhoneUser(phone, None, 0)];
  }

  // ---------------------------------------------------------------------------
  // Kakao

  /** What the Kakao user-info endpoint returned. */
  datatype KakaoProfile = KakaoProfile(kakaoId: string, email: Option<string>, nickname: Option<string>,
                                       profileImage: Option<string>)

  datatype KakaoLoginOutcome =
    | TokenRequired
    | KakaoUnavailable
    | NeedsSignup(profile: KakaoProfile)
    | KakaoLoggedIn(id: nat, user: User)

  function KakaoLoginStatus(o: KakaoLoginOutcome): int {
    match o
    case TokenRequired => 400
    case KakaoUnavailable => 500
    case NeedsSignup(_) => 404
    case KakaoLoggedIn(_, _) => 200
  }

  /** `seniorKakaoLogin`: find the active account linked to the Kakao id and
      switch it to senior mode; with none, ask the client to sign up. */
  function SeniorKakaoLogin(users: seq<User>, accessToken: Option<string>, kakao: Option<KakaoProfile>, now: int)
    : (r: (KakaoLoginOutcome, seq<User>))
    ensures !Truthy(accessToken) ==> r.0 == TokenRequired
    ensures Truthy(accessToken) && kakao.None? ==> r.0 == KakaoUnavailable
    ensures r.0.NeedsSignup? <==>
      Truthy(accessToken) && kakao.Some? &&
      forall k :: 0 <= k < |users| ==> !ActiveWithKakaoId(kakao.value.kakaoId)(users[k])
    ensures r.0.NeedsSignup? ==> r.0.profile == kakao.value
    ensures Truthy(accessToken) && kakao.Some? ==>
      match FirstWhere(users, ActiveWithKakaoId(kakao.value.kakaoId))
      case None => r.0.NeedsSignup?
      case Some(i) => r.0 == KakaoLoggedIn(i + 1, users[i].(preferredMode := SeniorMode, lastLoginAt := now))
    ensures !r.0.KakaoLoggedIn? ==> r.1 == users
    ensures r.0.KakaoLoggedIn? ==>
      var i := r.0.id - 1;
      && 0 <= i < |users| && |r.1| == |users|
      && users[i].kakaoId == Some(kakao.value.kakaoId) && users[i].status == Active
      && r.1 == users[i := r.0.user]
      && r.0.user == users[i].(preferredMode := SeniorMode, lastLoginAt := now)
  {
    if !Truthy(accessToken) then (TokenRequired, users)
    else if kakao.None? then (KakaoUnavailable, users)
    else
      match FirstWhere(users, ActiveWithKakaoId(kakao.value.kakaoId))
      case None => (NeedsSignup(kakao.value), users)
      case Some(i) =>
        var u := SeniorLogin(users[i], now);
        (KakaoLoggedIn(i + 1, u), users[i := u])
  }

  datatype KakaoSignupRequest = KakaoSignupRequest(accessToken: Option<string>, username: Option<string>,
                                                   phone: Option<string>, name: Option<string>)

  datatype KakaoSignupOutcome =
    | SignupTokenRequired
    | SignupKakaoUnavailable
    | UsernameAndPhoneRequired
    | DuplicatePhone
    | DuplicateUsername
    | DuplicateKakaoId
    | KakaoSignedUp(id: nat, user: User)

  function KakaoSignupStatus(o: KakaoSignupOutcome): int {
    match o
    case SignupKakaoUnavailable => 500
    case KakaoSignedUp(_, _) => 201
    case _ => 400
  }

  /** The account a Kakao sign-up creates. */
  function NewKakaoUser(req: KakaoSignupRequest, kakao: KakaoProfile, now: int): User
    requires Truthy(req.username) && Truthy(req.phone)
  {
    User(
      signupMode := "kakao",
      username := req.username.value,
      password := None,
      name := Some(OrElse(req.name, OrElse(kakao.nickname, req.username.value))),
      phone := NormalizePhone(req.phone.value),
      profileImage := if Truthy(kakao.profileImage) then kakao.profileImage else None,
      preferredMode := SeniorMode,
      kakaoId := Some(kakao.kakaoId),
      status := Active,
      lastLoginAt := now)
  }

  /** `seniorKakaoSignup`. The Kakao call is made before the required fields
      are checked; the duplicate checks look at accounts of every status. */
  function SeniorKakaoSignup(users: seq<User>, req: KakaoSignupRequest, kakao: Option<KakaoProfile>, now: int)
    : (r: (KakaoSignupOutcome, seq<User>))
    ensures !Truthy(req.accessToken) ==> r.0 == SignupTokenRequired
    ensures Truthy(req.accessToken) && kakao.None? ==> r.0 == SignupKakaoUnavailable
    ensures r.0 == UsernameAndPhoneRequired <==>
      Truthy(req.accessToken) && kakao.Some? && (!Truthy(req.username) || !Truthy(req.phone))
    ensures Truthy(req.accessToken) && kakao.Some? && Truthy(req.username) && Truthy(req.phone)
      && !PhoneTaken(users, NormalizePhone(req.phone.value)) && !UsernameTaken(users, req.username.value)
      && !KakaoIdTaken(users, kakao.value.kakaoId)
      ==> r.0.KakaoSignedUp?
    ensures !r.0.KakaoSignedUp? ==> r.1 == users
    ensures r.0.KakaoSignedUp? ==>
      && Truthy(req.accessToken) && kakao.Some? && Truthy(req.username) && Truthy(req.phone)
      && r.1 == users + [r.0.user] && r.0.id == |users| + 1
      && !PhoneTaken(users, r.0.user.phone)
      && !UsernameTaken(users, r.0.user.username)
      && !KakaoIdTaken(users, kakao.value.kakaoId)
  {
    if !Truthy(req.accessToken) then (SignupTokenRequired, users)
    else if kakao.None? then (SignupKakaoUnavailable, users)
    else if !Truthy(req.username) || !Truthy(req.phone) then (UsernameAndPhoneRequired, users)
    else
      var p := NormalizePhone(req.phone.value);
      if PhoneTaken(users, p) then (DuplicatePhone, users)
      else if UsernameTaken(users, req.username.value) then (DuplicateUsername, users)
      else if KakaoIdTaken(users, kakao.value.kakaoId) then (DuplicateKakaoId, users)
      else
        var u := NewKakaoUser(req, kakao.value, now);
        (KakaoSignedUp(|users| + 1, u), users + [u])
  }

  /** The rejections come in a fixed order: a taken number is reported
      before a taken username, and a taken username before a linked Kakao id. */
  lemma KakaoSignupCheckOrder(users: seq<User>, req: KakaoSignupRequest, kakao: Option<KakaoProfile>, now: int)
    requires Truthy(req.accessToken) && kakao.Some? && Truthy(req.username) && Truthy(req.phone)
    ensures var o := SeniorKakaoSignup(users, req, kakao, now).0;
      && (PhoneTaken(users, NormalizePhone(req.phone.value)) <==> o == DuplicatePhone)
      && (o == DuplicateUsername <==>
            !PhoneTaken(users, NormalizePhone(req.phone.value)) && UsernameTaken(users, req.username.value))
      && (o == DuplicateKakaoId <==>
            !PhoneTaken(users, NormalizePhone(req.phone.value)) && !UsernameTaken(users, req.username.value)
            && KakaoIdTaken(users, kakao.value.kakaoId))
  {
  }

  /** A Kakao sign-up stores the number without hyphens, the name given or
      else the Kakao nickname or else the username, senior mode and the
      Kakao id. */
  lemma KakaoSignupFields(users: seq<User>, req: KakaoSignupRequest, kakao: Option<KakaoProfile>, now: int)
    requires SeniorKakaoSignup(users, req, kakao, now).0.KakaoSignedUp?
    ensures var u := SeniorKakaoSignup(users, req, kakao, now).0.user;
      && u.phone == NormalizePhone(req.phone.value) && '-' !in u.phone
      && u.username == req.username.value
      && u.name == Some(if Truthy(req.name) then req.name.value
                        else if Truthy(kakao.value.nickname) then kakao.value.nickname.value
                        else req.username.value)
      && u.kakaoId == Some(kakao.value.kakaoId)
      && u.preferredMode == "senior" && u.status == Active && u.password == None
  {
  }

  /** Kakao sign-up keeps numbers, usernames and Kakao links unique. */
  lemma KakaoSignupKeepsAccountsUnique(users: seq<User>, req: KakaoSignupRequest, kakao: Option<KakaoProfile>, now: int)
    requires UniqueAccounts(users) && UniqueKakaoIds(users)
    ensures var users' := SeniorKakaoSignup(users, req, kakao, now).1;
      UniqueAccounts(users') && UniqueKakaoIds(users')
  {
    var r := SeniorKakaoSignup(users, req, kakao, now);
    if r.0.KakaoSignedUp? {
      AppendKeepsUnique(users, r.0.user);
      var t := r.1;
      forall i, j | 0 <= i < j < |t| && t[i].kakaoId.Some?
        ensures t[i].kakaoId != t[j].kakaoId
      {
        if j == |users| {
          assert t[i] == users[i];
        }
      }
    }
  }

  /** A Kakao account signed up through the senior entry point can log in
      with the same Kakao id right away. */
  lemma KakaoSignupThenLogin(users: seq<User>, req: KakaoSignupRequest, kakao: Option<KakaoProfile>,
                             now: int, later: int)
    requires SeniorKakaoSignup(users, req, kakao, now).0.KakaoSignedUp?
    ensures var users' := SeniorKakaoSignup(users, req, kakao, now).1;
      var o := SeniorKakaoLogin(users', req.accessToken, kakao, later).0;
      o.KakaoLoggedIn? && o.id == |users| + 1
  {
    var users' := SeniorKakaoSignup(users, req, kakao, now).1;
    var id := kakao.value.kakaoId;
    forall k | 0 <= k < |users|
      ensures !ActiveWithKakaoId(id)(users'[k])
    {
      assert users'[k] == users[k];
    }
    assert ActiveWithKakaoId(id)(users'[|users|]);
  }
}

=== FILE: store.dfy ===
/** The database tables the controllers read and write, the decoded token
    payload, and the uniqueness rules the account handlers maintain.
    Every table is a sequence whose index k holds the row with
    auto-increment id k + 1; a soft-deleted row has `deletedAt` set. */
module Store {
  import opened Wrappers
  import opened Query

  datatype AccountStatus = Active | Inactive

  /** A `users` row. `password` holds a hash, or nothing for accounts created
      by phone verification or Kakao. */
  datatype User = User(
    signupMode: string,
    username: string,
    password: Option<string>,
    name: Option<string>,
    phone: string,
    profileImage: Option<string>,
    preferredMode: string,
    kakaoId: Option<string>,
    status: AccountStatus,
    lastLoginAt: int)

  /** A `posts` row; `postType` is "feed", "reel" or "story". */
  datatype Post = Post(
    authorId: int,
    postType: string,
    isSeniorMode: bool,
    content: string,
    imageUrl: Option<string>,
    likeCount: int,
    commentCount: int,
    createdAt: int,
    deletedAt: Option<int>)

  /** A `comments` row. */
  datatype Comment = Comment(
    postId: int,
    authorId: int,
    content: string,
    likeCount: int,
    status: string,
    createdAt: int,
    deletedAt: Option<int>)

  datatype Db = Db(users: seq<User>, posts: seq<Post>, comments: seq<Comment>)

  /** The decoded token payload `req.user`. Every token the account handlers
      sign carries `userId`; `id` is read by the profile handler. A zero is
      as falsy as an absent field. */
  datatype Claims = Claims(userId: Option<int>, id: Option<int>)

  /** `WHERE id = ?` finds a row. */
  predicate HasRow<T>(table: seq<T>, id: int) {
    1 <= id <= |table|
  }

  /** The index of the first row satisfying p: the `rows[0]` of a query. */
  function FirstWhere<T>(table: seq<T>, p: T -> bool): (r: Option<nat>)
    ensures r.Some? ==> r.value < |table| && p(table[r.value])
    ensures r.Some? ==> forall k :: 0 <= k < r.value ==> !p(table[k])
    ensures r.None? ==> forall k :: 0 <= k < |table| ==> !p(table[k])
  {
    if |table| == 0 then None
    else if p(table[0]) then Some(0)
    else
      match FirstWhere(table[1..], p)
      case None => None
      case Some(i) => Some(i + 1)
  }

  /** `WHERE phone = ? AND status = 'active'` */
  function ActiveWithPhone(phone: string): User -> bool {
    (u: User) => u.phone == phone && u.status == Active
  }

  /** `WHERE kakao_user_id = ? AND status = 'active'` */
  function ActiveWithKakaoId(kakaoId: string): User -> bool {
    (u: User) => u.kakaoId == Some(kakaoId) && u.status == Active
  }

  /** `SELECT id FROM users WHERE phone = ?` returns a row. */
  predicate PhoneTaken(users: seq<User>, phone: string) {
    exists k :: 0 <= k < |users| && users[k].phone == phone
  }

  /** `SELECT id FROM users WHERE username = ?` returns a row. */
  predicate UsernameTaken(users: seq<User>, username: string) {
    exists k :: 0 <= k < |users| && users[k].username == username
  }

  /** `SELECT id FROM users WHERE kakao_user_id = ?` returns a row. */
  predicate KakaoIdTaken(users: seq<User>, kakaoId: string) {
    exists k :: 0 <= k < |users| && users[k].kakaoId == Some(kakaoId)
  }

  /** No two accounts share a phone number or a username. */
  predicate UniqueAccounts(users: seq<User>) {
    forall i, j :: 0 <= i < j < |users| ==>
      users[i].phone != users[j].phone && users[i].username != users[j].username
  }

  /** No two accounts are linked to the same Kakao id. */
  predicate UniqueKakaoIds(users: seq<User>) {
    forall i, j :: 0 <= i < j < |users| && users[i].kakaoId.Some? ==> users[i].kakaoId != users[j].kakaoId
  }

  /** Adding an account with a fresh phone and username keeps accounts unique. */
  lemma AppendKeepsUnique(users: seq<User>, u: User)
    requires UniqueAccounts(users)
    requires !PhoneTaken(users, u.phone) && !UsernameTaken(users, u.username)
    ensures UniqueAccounts(users + [u])
  {
    var t := users + [u];
    forall i, j | 0 <= i < j < |t|
      ensures t[i].phone != t[j].phone && t[i].username != t[j].username
    {
      if j == |users| {
        assert t[i] == users[i];
      }
    }
  }

  /** Changing an account without touching its phone or username keeps accounts unique. */
  lemma UpdateKeepsUnique(users: seq<User>, i: nat, u: User)
    requires i < |users| && UniqueAccounts(users)
    requires u.phone == users[i].phone && u.username == users[i].username
    ensures UniqueAccounts(users[i := u])
  {
  }
}

=== FILE: verification_codes.dfy ===
/** The in-memory SMS verification-code store of the senior controller: a
    map from a phone number with its hyphens removed to the six-digit code
    sent to it and the instant the code stops being accepted. The SMS
    gateway and the random source are parameters. */
module VerificationCodes {
  import opened Wrappers
  import opened JsString
  import opened JsNumber

  /** A code is accepted for five minutes after it is issued. */
  const CodeLifetimeMs: int := 5 * 60 * 1000

  datatype Entry = Entry(code: string, expiresAt: int)

  type CodeStore = map<string, Entry>

  /** `phone.replace(/-/g, "")`: every hyphen removed, every other character kept. */
  function NormalizePhone(phone: string): (r: string)
    ensures '-' !in r
    ensures forall c :: c != '-' ==> multiset(r)[c] == multiset(phone)[c]
  {
    if |phone| == 0 then ""
    else
      var rest := NormalizePhone(phone[1..]);
      assert multiset(phone) == multiset{phone[0]} + multiset(phone[1..]) by {
        assert phone == [phone[0]] + phone[1..];
      }
      if phone[0] == '-' then rest else [phone[0]] + rest
  }

  /** Normalising distributes over concatenation, so the characters that
      remain keep their order. */
  lemma {:induction false} NormalizeConcat(a: string, b: string)
    ensures NormalizePhone(a + b) == NormalizePhone(a) + NormalizePhone(b)
  {
    if |a| == 0 {
      assert a + b == b;
    } else {
      assert (a + b)[0] == a[0];
      assert (a + b)[1..] == a[1..] + b;
      NormalizeConcat(a[1..], b);
    }
  }

  /** A number without hyphens is already normal. */
  lemma {:induction false} NormalizeWithoutHyphens(s: string)
    requires '-' !in s
    ensures NormalizePhone(s) == s
  {
    if |s| > 0 {
      NormalizeWithoutHyphens(s[1..]);
    }
  }

  /** Normalising twice is normalising once. */
  lemma NormalizeIdempotent(s: string)
    ensures NormalizePhone(NormalizePhone(s)) == NormalizePhone(s)
  {
    NormalizeWithoutHyphens(NormalizePhone(s));
  }

  /** `Math.floor(100000 + Math.random() * 900000)` for a draw u in [0, 1). */
  function CodeNumber(u: real): (n: int)
    requires 0.0 <= u < 1.0
    ensures 100000 <= n <= 999999
  {
    (100000.0 + u * 900000.0).Floor
  }

  /** `generateVerificationCode()`: the decimal text of the drawn number. */
  function GenerateCode(u: real): (code: string)
    requires 0.0 <= u < 1.0
    ensures |code| == 6
    ensures forall k :: 0 <= k < |code| ==> IsDecimalDigit(code[k])
    ensures ParseInt(code, Ten) == Int(CodeNumber(u))
  {
    var n := CodeNumber(u);
    assert Pow10(5) == 100000 && Pow10(6) == 1000000;
    DecimalStringLength(n, 6);
    ParseIntReadsDecimal("", n, "", Ten);
    assert "" + DecimalString(n) + "" == DecimalString(n);
    DecimalString(n)
  }

  datatype SendOutcome = PhoneRequired | CodeSent | SmsFailed

  function SendStatus(o: SendOutcome): int {
    match o
    case PhoneRequired => 400
    case CodeSent => 200
    case SmsFailed => 500
  }

  datatype SendStep = SendStep(outcome: SendOutcome, codes: CodeStore)

  /** `sendVerificationCode`: with the generated `code`, the clock reading
      `now` and whether the SMS gateway accepted the message. The code is
      stored before the message is sent and stays stored when sending fails. */
  function SendVerificationCode(codes: CodeStore, phone: Option<string>, code: string, now: int, smsDelivered: bool): (r: SendStep)
    ensures !Truthy(phone) ==> r.outcome == PhoneRequired && r.codes == codes
    ensures Truthy(phone) ==>
      var p := NormalizePhone(phone.value);
      && r.codes.Keys == codes.Keys + {p}
      && r.codes[p] == Entry(code, now + CodeLifetimeMs)
      && (forall q :: q in codes && q != p ==> r.codes[q] == codes[q])
      && (r.outcome == CodeSent <==> smsDelivered)
      && r.outcome != PhoneRequired
  {
    if !Truthy(phone) then SendStep(PhoneRequired, codes)
    else
      var p := NormalizePhone(phone.value);
      var codes' := codes[p := Entry(code, now + CodeLifetimeMs)];
      SendStep(if smsDelivered then CodeSent else SmsFailed, codes')
  }

  /** The check both `verifyCode` and `seniorPhoneAuth` make: phone and code
      given, a code stored for the phone, not past its expiry, and equal. */
  predicate Accepts(codes: CodeStore, phone: Option<string>, code: Option<string>, now: int) {
    && Truthy(phone) && Truthy(code)
    && var p := NormalizePhone(phone.value);
    && p in codes && now <= codes[p].expiresAt && codes[p].code == code.value
  }

  datatype VerifyOutcome = InputRequired | NotIssued | Expired | Mismatch | Verified

  function VerifyStatus(o: VerifyOutcome): int {
    if o == Verified then 200 else 400
  }

  datatype VerifyStep = VerifyStep(outcome: VerifyOutcome, codes: CodeStore)

  /** `verifyCode`. */
  function VerifyCode(codes: CodeStore, phone: Option<string>, code: Option<string>, now: int): (r: VerifyStep)
    ensures r.outcome == Verified <==> Accepts(codes, phone, code, now)
    ensures r.outcome == InputRequired <==> !Truthy(phone) || !Truthy(code)
    ensures r.codes.Keys <= codes.Keys
    ensures forall q :: q in r.codes ==> r.codes[q] == codes[q]
    ensures r.codes != codes ==> r.outcome == Verified || r.outcome == Expired
    ensures r.outcome == Verified || r.outcome == Expired ==>
      var p := NormalizePhone(phone.value);
      p in codes && r.codes == codes - {p}
    ensures r.outcome == Expired ==> now > codes[NormalizePhone(phone.value)].expiresAt
    ensures Truthy(phone) && Truthy(code) ==>
      var p := NormalizePhone(phone.value);
      && (p !in codes ==> r.outcome == NotIssued && r.codes == codes)
      && (p in codes && now > codes[p].expiresAt ==> r.outcome == Expired && r.codes == codes - {p})
      && (p in codes && now <= codes[p].expiresAt && codes[p].code != code.value ==>
            r.outcome == Mismatch && r.codes == codes)
  {
    if !Truthy(phone) || !Truthy(code) then VerifyStep(InputRequired, codes)
    else
      var p := NormalizePhone(phone.value);
      if p !in codes then VerifyStep(NotIssued, codes)
      else if now > codes[p].expiresAt then VerifyStep(Expired, codes - {p})
      else if codes[p].code != code.value then VerifyStep(Mismatch, codes)
      else VerifyStep(Verified, codes - {p})
  }

  /** A code just issued to a number is accepted, under any spelling of the
      number with the same digits, until exactly its expiry instant. */
  lemma IssueThenVerify(codes: CodeStore, phone: Option<string>, code: string, issuedAt: int,
                        smsDelivered: bool, phone2: Option<string>, now: int)
    requires Truthy(phone) && Truthy(phone2)
    requires NormalizePhone(phone2.value) == NormalizePhone(phone.value)
    requires |code| > 0 && now <= issuedAt + CodeLifetimeMs
    ensures VerifyCode(SendVerificationCode(codes, phone, code, issuedAt, smsDelivered).codes,
                       phone2, Some(code), now).outcome == Verified
  {
  }

  /** After its expiry instant an issued code is refused and its entry deleted. */
  lemma IssueThenExpire(codes: CodeStore, phone: Option<string>, code: string, issuedAt: int,
                        smsDelivered: bool, now: int)
    requires Truthy(phone) && |code| > 0 && now > issuedAt + CodeLifetimeMs
    ensures var issued := SendVerificationCode(codes, phone, code, issuedAt, smsDelivered).codes;
      var r := VerifyCode(issued, phone, Some(code), now);
      r.outcome == Expired && NormalizePhone(phone.value) !in r.codes
  {
  }

  /** A code is single-use: once verified, the same code is no longer on record. */
  lemma VerifiedCodeIsConsumed(codes: CodeStore, phone: Option<string>, code: Option<string>, now: int, later: int)
    requires VerifyCode(codes, phone, code, now).outcome == Verified
    ensures VerifyCode(VerifyCode(codes, phone, code, now).codes, phone, code, later).outcome == NotIssued
  {
  }

  /** A wrong guess does not burn the code: the right code still works before expiry. */
  lemma WrongCodeKeepsEntry(codes: CodeStore, phone: Option<string>, wrong: Option<string>, right: Option<string>,
                            now: int, later: int)
    requires VerifyCode(codes, phone, wrong, now).outcome == Mismatch
    requires Accepts(codes, phone, right, later)
    ensures VerifyCode(VerifyCode(codes, phone, wrong, now).codes, phone, right, later).outcome == Verified
  {
  }

  /** Issuing a new code replaces the old one: the old code no longer matches. */
  lemma ReissueReplacesCode(codes: CodeStore, phone: Option<string>, first: string, second: string,
                            t1: int, t2: int, sms1: bool, sms2: bool, now: int)
    requires Truthy(phone) && |first| > 0 && first != second
    requires now <= t2 + CodeLifetimeMs
    ensures var c1 := SendVerificationCode(codes, phone, first, t1, sms1).codes;
      var c2 := SendVerificationCode(c1, phone, second, t2, sms2).codes;
      VerifyCode(c2, phone, Some(first), now).outcome == Mismatch
  {
  }
}

=== FILE: wrappers.dfy ===
/** The absent-or-present value used for optional request fields and
    nullable columns (JavaScript `undefined`/`null` versus a value). */
module Wrappers {

  datatype Option<+T> = None | Some(value: T)
}
